=== FILE: README.md ===
# package-actions, modelled in Dafny

package-actions is a Composer plugin. After a package is installed or
updated, it reads the "extra" sections of that package and of the root
project and runs the file actions they declare for the package: copy,
remove, create (a directory with given permissions) and symlink. A symlink
holds a relative path to its origin, computed by
`FileManager::getRelativePath` from the link location. The model stores the
path relative to the directory that holds the link. The code computes the
same text except when a directory, or a link to one, is already at the link
location; that case is the finding below.

The model has seven modules:

- `RelativePaths` (`relative_paths.dfy`) covers `getRelativePath`. It normalises both paths, splits them into segments, finds the first mismatch, and builds the result by shifting, padding with `..` or gluing `./`. The loop is an imperative method proved equal to a functional specification. Lemmas give the three shapes of the result, the normalisation rules, and the round trip under the condition `Reachable`: when the mismatch lies within `from`, the directories the result climbs out of are plain names, and the rest of `to` holds no "." or "..", resolving the result from the directory holding `from` gives back `to`. `RelativePathExamples.DotInLinkLocation` shows a link location outside that condition, where the code's result climbs too far.
- `RelativePathExamples` (`relative_path_examples.dfy`) works through concrete paths: a sibling, an upward traversal, a descendant, two directories, and a link location written with a "." segment, which falls outside the round trip.
- `PhpValues` (`php_values.dfy`) models the manifest as ordered PHP arrays. It covers `array_replace_recursive`, `isset`, `array_key_exists`, the `(array)` cast and `foreach` over a value that is not an array.
- `Filesystem` (`filesystem.dfy`) is the filesystem as a map from path to file, directory or link. It provides `isAbsolutePath`, `exists`, `is_dir`, recursive remove and the recursive copy of a directory.
- `FileManager` (`file_manager.dfy`) holds the four actions.
  - Each entry of an action is a function from world to world, where the world is the filesystem and the console.
  - `Run` folds an entry function over the entries and stops at the first exception.
  - The class `FileManager` performs each action by updating its fields in a loop. Its methods are proved equal to that fold.
- `InstallerPlugin` (`installer_plugin.dfy`) covers `operate` and the two event handlers. It models the merge of the extras, the choice of the action table, the filter on the package name, and the dispatch to the actions. It reports skipped actions and caught exceptions.
- `SymlinkFinding` (`symlink_finding.dfy`) holds the counterexample for the finding below.

The working directory (`getcwd()`) is a constant of the `FileManager` object. The filesystem and the console are its fields. The separator is `/`. Whether a path names a directory is read from the abstract filesystem.

## Model

| member | source | states |
|---|---|---|
| `RelativePaths.GetRelativePath` | src/Composer/Manager/FileManager.php:259-292 | normalising and splitting both paths, comparing their segments and joining what is left returns exactly `RelativePath`, the join of `RelativeSegments` of the normalised segments |
| `RelativePaths.CompareSegments` | src/Composer/Manager/FileManager.php:270-289 | the `foreach` over `from`'s segments, starting from `$relPath = $to`, ends with exactly `RelativeSegments`; its invariant is that finishing the scan from the current depth gives that result |
| `RelativePaths.Normalize` | src/Composer/Manager/FileManager.php:262-265 | definition: a directory path loses its trailing separators and gains one '/'; then every '\' becomes '/' |
| `RelativePaths.Scan` | src/Composer/Manager/FileManager.php:272-289 | definition: the rest of the `foreach` from a given depth; a matching segment is shifted off, a mismatch with more than one segment of `from` left pads with `..` and stops, a mismatch at the last segment glues `./` |
| `RelativePaths.RelativeSegments` | src/Composer/Manager/FileManager.php:270-289 | definition: the scan from depth 0 starting with `$relPath = $to`; its shapes are stated by `RelativeSegmentsClimb`, `RelativeSegmentsCurrentDir` and `RelativeSegmentsDescend` |
| `RelativePaths.RelativePath` | src/Composer/Manager/FileManager.php:259-292 | definition: getRelativePath on strings, the join of `RelativeSegments` of both normalised paths; `GetRelativePath` is proved equal to it |
| `RelativePaths.Resolve` | src/Composer/Manager/FileManager.php:249 | reference definition of how a relative link text is followed from a directory: `..` goes up, `.` stays, any other segment goes down; the round-trip lemmas are stated with it |
| `RelativePaths.TrimSeparators` | src/Composer/Manager/FileManager.php:262-263 | `rtrim($p, '\/')` returns a prefix of `p` that does not end in '/' or '\', and everything it dropped is '/' or '\' |
| `RelativePaths.Split` | src/Composer/Manager/FileManager.php:267-268 | `explode('/')` gives at least one segment, and no segment contains '/' |
| `RelativePaths.Join` | src/Composer/Manager/FileManager.php:291 | definition: `implode('/')`; `JoinSplit` and `SplitJoin` relate it to `Split` |
| `RelativePaths.Segments` | src/Composer/Manager/FileManager.php:262-268 | definition: the normalised path split at '/'; a directory's segments end in an empty segment (`JoinAppendEmpty`, `PlainDirectorySegments`) |
| `RelativePaths.FirstMismatch` | src/Composer/Manager/FileManager.php:272-274 | the depth `d` at which the segments first differ: all earlier segments are equal, and at `d` they differ or `to` has ended, which PHP reads as null |
| `RelativePaths.ArrayPad` | src/Composer/Manager/FileManager.php:282-283 | `array_pad` with a negative size puts copies of the value in front of the array up to that length; a size within the length leaves the array alone |
| `RelativePaths.RelativeSegmentsClimb` | src/Composer/Manager/FileManager.php:279-284 | a mismatch at depth `d` with more than one segment of `from` left gives `count(from)-d-1` `..` segments, then `to`'s segments from `d` on |
| `RelativePaths.RelativeSegmentsCurrentDir` | src/Composer/Manager/FileManager.php:285-287 | a mismatch at `from`'s last segment gives no `..`: `./` glued to `to[d]` and then the rest of `to`, or `./` alone when `to` has ended |
| `RelativePaths.RelativeSegmentsDescend` | src/Composer/Manager/FileManager.php:272-276 | when every segment of `from` matches, the result is `to` without its first `count(from)` segments |
| `RelativePaths.RelativePathToItself` | src/Composer/Manager/FileManager.php:272-291 | a path relative to itself is the empty string and never a traversal |
| `RelativePaths.NormalizeSeparatorsAlike` | src/Composer/Manager/FileManager.php:262-265 | paths that differ only in using '\' for '/' normalise to the same string |
| `RelativePaths.RelativePathSeparatorsAlike` | src/Composer/Manager/FileManager.php:259-292 | backslashes in either input act exactly like '/': the relative path is the same |
| `RelativePaths.NormalizeDirectory` | src/Composer/Manager/FileManager.php:262-265 | a directory normalises to a string ending in exactly one '/' and holding no '\', whatever run of separators it ended with |
| `RelativePaths.JoinSplit` | src/Composer/Manager/FileManager.php:267-291 | `implode` undoes `explode` |
| `RelativePaths.SplitJoin` | src/Composer/Manager/FileManager.php:267-291 | `explode` undoes `implode` on segments free of '/' |
| `RelativePaths.ClimbRoundTrip` | src/Composer/Manager/FileManager.php:279-291 | segments that climb from the directory holding `from` to a depth where `from` and `to` agree, out of directories named by plain segments (not empty, "." or ".."), then descend through the rest of `to`, resolve to `to` after joining and splitting |
| `RelativePaths.ClimbShape` | src/Composer/Manager/FileManager.php:272-284 | a result that climbs has that shape: the `..` segments lead to the common prefix, and the rest of `to` holds no '/', '.' or '..' |
| `RelativePaths.RoundTripClimbing` | src/Composer/Manager/FileManager.php:279-284 | when `Reachable` holds (the mismatch lies within `from`, the directories of `from` past it are plain names, no segment of `to` past it is "." or "..") and the mismatch is before `from`'s last segment, the result that climbs with `..`, resolved from the directory holding `from`, yields `to` |
| `RelativePaths.RoundTripCurrentDir` | src/Composer/Manager/FileManager.php:285-287 | when `Reachable` holds and the mismatch is at `from`'s last segment (so something of `to` is left there), the result that starts with `./`, resolved from the directory holding `from`, yields `to` |
| `RelativePaths.RelativeSegmentsRoundTrip` | src/Composer/Manager/FileManager.php:272-291 | when `Reachable` holds (the mismatch lies within `from`, something of `to` is left after a mismatch at `from`'s last segment, the directories of `from` past the mismatch are plain names, and no segment of `to` past the mismatch is "." or ".."), resolving the joined result from the directory holding `from` gives `to`'s segments |
| `RelativePaths.RelativePathRoundTrip` | src/Composer/Manager/FileManager.php:259-292 | the same on strings, under the same `Reachable` condition on the segments: the resolved result is the normalised `to` |
| `RelativePaths.Reachable` | src/Composer/Manager/FileManager.php:272-291 | definition: the condition of the round trip; the mismatch lies within `from`, something of `to` is left after a mismatch at `from`'s last segment, `PlainBelow` holds at the mismatch, and no segment of `to` past it is "." or ".." |
| `RelativePaths.PlainBelow` | src/Composer/Manager/FileManager.php:279-284 | definition: the segments of `from` that the `..` padding climbs out of are neither empty, "." nor "..", so a literal reading of `from` names the directories the filesystem climbs out of |
| `RelativePathExamples.SiblingFile` | src/Composer/Manager/FileManager.php:259-292 | `RelativePath("/a/b/c.txt", "/a/b/d.txt", false, false)` is `./d.txt` |
| `RelativePathExamples.UpwardTraversal` | src/Composer/Manager/FileManager.php:259-292 | `RelativePath("/a/b/c/file.txt", "/a/x.txt", false, false)` is `../../x.txt` |
| `RelativePathExamples.Descendant` | src/Composer/Manager/FileManager.php:259-292 | `RelativePath("/a/file.txt", "/a/sub/dir/target.txt", false, false)` is `./sub/dir/target.txt` |
| `RelativePathExamples.Directories` | src/Composer/Manager/FileManager.php:262-291 | `RelativePath("/proj/pkg/vendor/lib/", "/proj/public/lib/", true, true)`, between two directories, is `../../../public/lib/`, with the trailing '/' that the directory `to` keeps from its appended '/'; the model follows the code here |
| `RelativePathExamples.DirectorySegments` | src/Composer/Manager/FileManager.php:272-284 | the segments of that result: three `..` and then `public`, `lib` and an empty segment |
| `RelativePathExamples.DotInLinkLocation` | src/Composer/Manager/FileManager.php:235-237 | for the link location "/p/./public/dist" and the origin "/p/vendor/a/b/dist", the result splits into `..`, `..`, `vendor`, `a`, `b`, `dist`; `Reachable` is false; read literally from "/p/." the text reaches the origin, but from the real directory /p/public it names /vendor/a/b/dist |
| `PhpValues.Keys` | src/Composer/InstallerPlugin.php:116 | the keys of an array in their order, one per entry |
| `PhpValues.Lookup` | src/Composer/InstallerPlugin.php:118 | a key is found exactly when it is among the array's keys (`array_key_exists`) |
| `PhpValues.Update` | src/Composer/InstallerPlugin.php:97 | assigning to an existing key keeps the key order; a new key goes at the end |
| `PhpValues.UpdateLookup` | src/Composer/InstallerPlugin.php:97 | after `$a[$k] = $v`, `$a[$k]` is `v` and every other key reads as before |
| `PhpValues.ReplaceRecursiveLookup` | src/Composer/InstallerPlugin.php:97 | in the merged extras, the root project's value wins on a shared key, two arrays under the same key are merged recursively, and a key only the package has keeps its value |
| `PhpValues.ReplaceRecursiveKeys` | src/Composer/InstallerPlugin.php:97 | the merged extras list the package's keys in their places, then the keys only the root project has, in its order |
| `PhpValues.ReplaceRecursive` | src/Composer/InstallerPlugin.php:97 | definition: `array_replace_recursive`, each replacement entry in order updating the base, arrays on both sides merged by the same rule; its meaning is stated by `ReplaceRecursiveLookup` and `ReplaceRecursiveKeys` |
| `PhpValues.Replaced` | src/Composer/InstallerPlugin.php:97 | definition: the value `array_replace_recursive` keeps under a key of the replacement array, the two values merged when both are arrays and the replacement's value otherwise; `ReplaceRecursiveLookup` states it of the merged array |
| `PhpValues.IsSet` | src/Composer/InstallerPlugin.php:101-103 | definition: `isset($a[$k])`, the key is present and its value is not null |
| `PhpValues.Elements` | src/Composer/InstallerPlugin.php:116 | definition: the pairs `foreach` visits, none when the value is not an array |
| `PhpValues.AsString` | src/Composer/Manager/FileManager.php:58-59 | definition: PHP's string conversion of a manifest value used as a path: null is "", an array is "Array" |
| `PhpValues.DistinctTail` | src/Composer/InstallerPlugin.php:97 | the rest of an array with distinct keys has distinct keys and lacks the first key |
| `PhpValues.NewKeysIgnoresAbsent` | src/Composer/InstallerPlugin.php:97 | a key the replacement array lacks does not change which of its keys are new |
| `PhpValues.ToList` | src/Composer/Manager/FileManager.php:225 | `(array)$targets`: null gives no link location, a scalar gives itself, an array gives its values in order |
| `Filesystem.SchemeLength` | src/Composer/Manager/FileManager.php:48 | the leading run of characters a URL scheme may hold, as `isAbsolutePath` looks for one |
| `Filesystem.IsAbsolutePath` | src/Composer/Manager/FileManager.php:48 | definition: a leading '/' or '\', a drive letter followed by ':' and a separator, or a `scheme://` prefix |
| `Filesystem.Exists` | src/Composer/Manager/FileManager.php:61 | definition: `exists` is true when the path is in the map |
| `Filesystem.IsDir` | src/Composer/Manager/FileManager.php:63 | definition: `is_dir` is true when the path holds a directory |
| `Filesystem.RemoveTree` | src/Composer/Manager/FileManager.php:152 | `remove` deletes the path and everything below it, and nothing else |
| `Filesystem.RelocatedInjective` | src/Composer/Manager/FileManager.php:76-80 | two entries below the source never land on the same path below the destination |
| `Filesystem.CopiedEntries` | src/Composer/Manager/FileManager.php:72-82 | every entry below the source appears at the same sub-path below the destination, and nothing else does |
| `Filesystem.Relocated` | src/Composer/Manager/FileManager.php:76-80 | definition: `$destination . '/' . getSubPathName()`, the entry's path below the source placed below the destination; `RelocatedInjective` shows no two entries collide |
| `Filesystem.CopyOf` | src/Composer/Manager/FileManager.php:74-80 | definition: a directory below the source is made with `mkdir`'s default mode, a file or link is copied as it is; `CopiedEntries` states where each lands |
| `Filesystem.CopyTree` | src/Composer/Manager/FileManager.php:67-82 | copying a directory makes the destination a directory, recreates every entry below the source at the same sub-path, and leaves everything outside the destination as it was |
| `FileManager.RunAppend` | src/Composer/Manager/FileManager.php:46 | one more iteration of an action's loop runs the next entry unless an earlier one threw |
| `FileManager.RunConcat` | src/Composer/Manager/FileManager.php:46 | running entries `a` then `b` is running `a`, then `b` from the world `a` left, unless `a` threw |
| `FileManager.RunNext` | src/Composer/Manager/FileManager.php:46 | after `i` entries that did not throw, entry `i` runs next |
| `FileManager.RunThrown` | src/Composer/Manager/FileManager.php:46 | once entry `i` throws, the later entries change nothing |
| `FileManager.StopsAt` | src/Composer/Manager/FileManager.php:46-56 | a throwing entry ends the action: the earlier entries keep their effects, and the later ones are not processed |
| `FileManager.Run` | src/Composer/Manager/FileManager.php:46 | definition: an action's `foreach`, running one entry after another from the world the previous left, and stopping at the first exception |
| `FileManager.PackagePath` | src/Composer/Manager/FileManager.php:216-234 | definition: a path in the package, `<cwd>/vendor/<name>/<path>`, as symlink builds its origin; copy's relative source `vendor/<name>/<path>` (lines 44 and 58) is placed under the working directory, which is where PHP resolves it |
| `FileManager.ProjectPath` | src/Composer/Manager/FileManager.php:59 | definition: `getcwd() . '/' . <path>`, the destination of copy, and likewise the path of remove (line 146), of create (line 187) and a link location (line 235) |
| `FileManager.CopyEntry` | src/Composer/Manager/FileManager.php:46-103 | definition of one copy entry; its effect is stated by `CopyEntryEffect` |
| `FileManager.RemoveEntry` | src/Composer/Manager/FileManager.php:139-166 | definition of one remove entry; its effect is stated by `RemoveEntryEffect` |
| `FileManager.CreateEntry` | src/Composer/Manager/FileManager.php:180-204 | definition of one create entry; its effect is stated by `CreateEntryEffect` |
| `FileManager.SymlinkTarget` | src/Composer/Manager/FileManager.php:227-250 | definition of one link location, storing the corrected `LinkText` (see "## Left out"); its effect is stated by `SymlinkTargetEffect` |
| `FileManager.SymlinkEntry` | src/Composer/Manager/FileManager.php:218-251 | definition of one `origin => targets` entry: a relative origin, then `Run` over the link locations of `(array)$targets` |
| `FileManager.AsWrittenLinkText` | src/Composer/Manager/FileManager.php:237 | definition: the link text as line 237 computes it, with `is_dir` of the link location |
| `FileManager.LinkText` | src/Composer/Manager/FileManager.php:237 | definition: the corrected link text, relative to the directory holding the link, computed from the location with its trailing separators trimmed (a location ending in '/' is covered by "## Left out") |
| `FileManager.LinkTextAgrees` | src/Composer/Manager/FileManager.php:237 | when the model's `IsDir` is false at the link location and the location does not end in a separator, the as-written and the corrected link texts are the same; `IsDir` does not follow links, so a link to a directory there is not covered (see "## Left out") |
| `FileManager.CopyEntryEffect` | src/Composer/Manager/FileManager.php:46-103 | one copy entry: an absolute source or destination throws before anything changes; an existing destination is left alone; a missing source throws InvalidArgumentException; otherwise the destination is made, as a tree for a directory; nothing outside it changes, and every path present afterwards was there before or is the destination or below it |
| `FileManager.RemoveEntryEffect` | src/Composer/Manager/FileManager.php:139-166 | one remove entry: an absolute path throws before anything changes; a missing path changes nothing; an existing path goes with everything below it, and nothing else changes |
| `FileManager.CreateEntryEffect` | src/Composer/Manager/FileManager.php:180-204 | one create entry: an absolute path throws before anything changes; an existing path is left alone; otherwise a directory with the requested permissions appears, and nothing else changes |
| `FileManager.SymlinkTargetEffect` | src/Composer/Manager/FileManager.php:227-250 | one link location: an absolute location throws, and so does a missing origin, before the location is touched; otherwise whatever was at the location, and below it, is replaced by a link holding the corrected `LinkText` to the origin (see "## Left out") |
| `FileManager.FileManager.Copy` | src/Composer/Manager/FileManager.php:41-104 | the copy loop leaves the filesystem and console, and returns the exception, that `Run` of the copy entries gives |
| `FileManager.FileManager.CopyOne` | src/Composer/Manager/FileManager.php:48-101 | one pass of the copy loop leaves the filesystem and console, and returns the exception, that `CopyEntry` gives for that entry |
| `FileManager.FileManager.Remove` | src/Composer/Manager/FileManager.php:135-167 | the remove loop agrees with `Run` of the remove entries |
| `FileManager.FileManager.Create` | src/Composer/Manager/FileManager.php:176-205 | the create loop agrees with `Run` of the create entries |
| `FileManager.FileManager.Symlink` | src/Composer/Manager/FileManager.php:213-252 | the nested symlink loops agree with `Run` of the symlink entries, which store the corrected `LinkText` (see "## Left out") |
| `FileManager.FileManager.SymlinkOrigin` | src/Composer/Manager/FileManager.php:227-250 | the inner loop over one origin's link locations agrees with `Run` of the link-location entries, storing the corrected `LinkText` (see "## Left out") |
| `FileManager.FileManager.Write` | src/Composer/Manager/FileManager.php:247 | writing to the console appends one message and leaves the filesystem alone |
| `FileManager.FileManager.constructor` | src/Composer/Manager/FileManager.php:27-30 | a new file manager starts on the given filesystem with an empty console |
| `FileManager.CopyRejectsAbsolute` | src/Composer/Manager/FileManager.php:48-56 | an absolute source or destination ends the copy with InvalidArgumentException; the entries before it keep their effects, and the entries after it are not processed |
| `FileManager.RemoveRejectsAbsolute` | src/Composer/Manager/FileManager.php:141-144 | the same for remove |
| `FileManager.CreateRejectsAbsolute` | src/Composer/Manager/FileManager.php:182-185 | the same for create |
| `FileManager.SymlinkRejectsAbsoluteOrigin` | src/Composer/Manager/FileManager.php:220-223 | the same for the origin of a symlink entry |
| `FileManager.SymlinkStopsAtTarget` | src/Composer/Manager/FileManager.php:229-242 | an absolute link location or a missing origin ends the symlink action with the links made so far; the location is not removed, and no later location or entry is processed; as in the code, the RuntimeException for a missing origin is then reported by `operate`, and the following actions of the package still run |
| `FileManager.LinkTextRoundTrip` | src/Composer/Manager/FileManager.php:234-249 | when `Reachable` holds for the segments of the link location, its trailing separators trimmed, and of the origin, the corrected link text, resolved from the directory that holds the link, names the origin; a location ending in '/' is not linked this way by the code (see "## Left out") |
| `RelativePaths.PlainSegments` | src/Composer/Manager/FileManager.php:264-268 | a path made of segments free of separators splits back into them |
| `RelativePaths.PlainDirectorySegments` | src/Composer/Manager/FileManager.php:262-268 | such a path, read as a directory, gains one empty last segment |
| `RelativePaths.JoinHasNoBackslash` | src/Composer/Manager/FileManager.php:291 | joining segments free of '\' gives a path free of '\' |
| `RelativePaths.JoinLast` | src/Composer/Manager/FileManager.php:291 | a joined path ends in the last character of its last segment |
| `RelativePaths.JoinAppendEmpty` | src/Composer/Manager/FileManager.php:262-268 | appending an empty segment appends a '/' |
| `SymlinkFinding.ExistingDirectoryClimbsTooFar` | src/Composer/Manager/FileManager.php:237 | with a directory at the link location, the as-written link text is `../vendor/a/b/lib`, which from the link's directory /p names /vendor/a/b/lib and not the origin |
| `SymlinkFinding.LinkTextReachesOrigin` | src/Composer/Manager/FileManager.php:237 | in the same situation, the link text the model uses is `./vendor/a/b/lib`, which from /p names the origin |
| `SymlinkFinding.AsWrittenText` | src/Composer/Manager/FileManager.php:237 | the as-written link text in that situation, as segments |
| `SymlinkFinding.CorrectedText` | src/Composer/Manager/FileManager.php:237 | the model's link text in that situation, as segments |
| `InstallerPlugin.ActionTable` | src/Composer/InstallerPlugin.php:100-114 | there is a table exactly when "file-management" (install only) or "post-package-<type>" is set and not null; on install "file-management" wins; on update only "post-package-update" is read |
| `InstallerPlugin.Extras` | src/Composer/InstallerPlugin.php:97 | definition: the package's extras merged with the root project's by `array_replace_recursive` |
| `InstallerPlugin.Apply` | src/Composer/InstallerPlugin.php:124 | definition: `$fm->$action(...)` as `Run` of that action's entries over `foreach` of the value |
| `InstallerPlugin.DispatchEntry` | src/Composer/InstallerPlugin.php:118-134 | definition of one entry of the action table; its cases are stated by `DispatchEntryEffect` |
| `InstallerPlugin.Selects` | src/Composer/InstallerPlugin.php:118 | definition: `array_key_exists($package->getName(), $pkg_names)`, false when `pkg_names` is not an array (see "## Left out") |
| `InstallerPlugin.DispatchStep` | src/Composer/InstallerPlugin.php:122-129 | definition: the loop body never lets an exception out, because `try`/`catch` reports it; `DispatchNeverThrows` and `DispatchInOrder` state it |
| `InstallerPlugin.EventKey` | src/Composer/InstallerPlugin.php:100-114 | definition: `"post-package-" . $type`, the key of the event's table; `ActionTable` states how it is used |
| `InstallerPlugin.Operation` | src/Composer/InstallerPlugin.php:94-138 | definition: merge, choose the table, then dispatch every entry in order; `Operate` is proved equal to it |
| `InstallerPlugin.Lower` | src/Composer/InstallerPlugin.php:120 | method names are compared without regard to ASCII case |
| `InstallerPlugin.ActionNamed` | src/Composer/InstallerPlugin.php:120 | an action name reaches a file action exactly when it is that action's method name, ignoring case |
| `InstallerPlugin.ActionNamedMethodName` | src/Composer/InstallerPlugin.php:120 | each of copy, remove, create and symlink reaches its own action |
| `InstallerPlugin.Operate` | src/Composer/InstallerPlugin.php:94-138 | the loop over the action table leaves the filesystem and console as `Operation` says: merge, choose the table, then run every entry in order |
| `InstallerPlugin.Call` | src/Composer/InstallerPlugin.php:124 | `$fm->$action(...)` runs exactly the named file action on the given value |
| `InstallerPlugin.OnPostPackageInstall` | src/Composer/InstallerPlugin.php:65-71 | an install event operates on the operation's package |
| `InstallerPlugin.OnPostPackageUpdate` | src/Composer/InstallerPlugin.php:79-84 | an update event operates on the operation's target package, never the initial one |
| `InstallerPlugin.DispatchNeverThrows` | src/Composer/InstallerPlugin.php:122-129 | definitional: no exception of an action leaves `operate`, because `DispatchStep` never throws; the lemma carries this through the whole loop |
| `InstallerPlugin.DispatchInOrder` | src/Composer/InstallerPlugin.php:116-136 | the actions run in the table's order, each from the world the earlier ones left, and an exception in one does not keep the next from running |
| `InstallerPlugin.DispatchEntryEffect` | src/Composer/InstallerPlugin.php:118-134 | definitional, a case split of `DispatchEntry`: an entry not naming the package changes nothing; an unknown action only adds a warning; a known action runs on exactly the value under the package's name, and its exception is reported after the effects it made |
| `InstallerPlugin.NoTableNoEffect` | src/Composer/InstallerPlugin.php:100-105 | definitional, the `None` case of `Operation`: without an action table for the event, nothing happens |
| `InstallerPlugin.RootTableWins` | src/Composer/InstallerPlugin.php:97-114 | when the root project sets "post-package-update" to a value other than null, the update's table is the root's value merged recursively over the package's when both are arrays, the root's entries winning, and the root's value alone otherwise |

## Left out

- Real filesystem effects, the Symfony `Filesystem` component and the `RecursiveDirectoryIterator` are replaced by the path map. Paths are keys compared as strings: "." and ".." inside a manifest path are not resolved.
- Links are never followed by `Exists`, `IsDir` or the copy of a file. In PHP, `file_exists` is false for a dangling link, `is_dir` is true for a link to a directory, and `copy` copies the file a link points to. Inside a copied tree, a link is copied as a link.
- I/O failures of the underlying calls are not modelled (permissions, a full disk, a parent that is a file). The only one modelled is copying a missing file, so the `catch (IOException)` blocks at FileManager.php:84-87, 95-98, 162-165 and 200-203 have nothing else to wrap.
- `mkdir`, `copy` and `symlink` also create missing parent directories; this is not modelled. The order in which the tree copy visits entries is not modelled either: the model copies everything below the source at once.
- `umask` and `octdec` around `mkdir` (FileManager.php:195-197) are left out. The model records the permission string as given.
- Console messages carry their kind and paths, not their text or `<comment>`/`<error>` markup. The removal of `getcwd()` from the displayed paths is not modelled. The unreachable `elseif` at FileManager.php:155-158 repeats the test of line 150, so the model has one branch and one message for directories and files.
- `Filesystem.IsAbsolutePath`: a URL scheme is recognised only in the form `scheme://`. This stands in for `parse_url($file, PHP_URL_SCHEME)`, which also accepts some forms without "//".
- Composer event wiring, `getSubscribedEvents` (whose PRE_INSTALL_CMD entry names a method that does not exist) and `activate` are not modelled. The root package, the event's operation and the working directory are parameters.
- `method_exists` also accepts `get`, `getRelativePath` and `__construct`. Calling protected `get` from the plugin raises an Error that `catch (\Exception)` does not catch. The model knows only copy, remove, create and symlink. The unused `get` helper (FileManager.php:112-124) is left out.
- The import at InstallerPlugin.php:16 names the namespace `PackgeActions`, which does not match FileManager.php:3. The model assumes dispatch reaches FileManager.
- A `pkg_names` value that is not an array is skipped, as `array_key_exists` does under PHP 7 with a warning. Under PHP 8 it raises a TypeError outside the `try`, which ends `operate`.
- `PhpValues.AsString` converts an array path value to "Array" and null to "", as PHP 7 does with a notice. Under PHP 8, or through Symfony's typed `isAbsolutePath(string $file)`, such a value raises a TypeError, which `catch (\Exception)` at InstallerPlugin.php:126 does not catch, so it ends `operate`; the model carries on with the converted string.
- The separator is '/'. The Windows `DIRECTORY_SEPARATOR` is left out.
- The source creates a new FileManager in each `operate`, and that object holds only the console. In the model, one `FileManager` object stands for the filesystem and console shared by all calls.
- `FileManager.SymlinkTarget` stores `LinkText`, the corrected text of the finding below, and not `AsWrittenLinkText`, which line 237 computes. The two agree unless a directory, or a link to one, is at the link location before it is replaced (`FileManager.LinkTextAgrees` covers the model's `IsDir`); with one there, the source stores a text with one `..` too many.
- `FileManager.SymlinkTarget` does not model a link location ending in '/', such as `www/`. The source removes the directory /p/www, then `symlink` to /p/www/ fails with an IOException that `operate` reports. The model compares paths as strings: it keeps the directory at /p/www, adds a link under the key /p/www/ and throws nothing. Its `LinkText` is computed from the location with the separator trimmed.
- `FileManager.SymlinkTargetEffect` states the corrected `LinkText` as the new link, for the same reason; the source's text differs when a directory, or a link to one, is at the location.
- `FileManager.AsWrittenLinkText` reads the model's `IsDir`, which does not follow links. When a link to a directory is at the location, as on every re-install of a directory origin, PHP's `is_dir` is true and line 237 appends a '/', but this member computes the text as if nothing were there.
- `FileManager.FileManager.SymlinkOrigin` stores the corrected `LinkText`, so it agrees with the source only when neither a directory nor a link to one is at the link location.
- `FileManager.FileManager.Symlink` stores the corrected `LinkText` through `SymlinkOrigin`, with the same limit.
- `FileManager.LinkTextRoundTrip` holds under the `Reachable` condition of `RelativePathRoundTrip`, for the segments of the link location, its trailing separators trimmed, and of the origin; a location ending in '/' is not linked by the code at all (see `FileManager.SymlinkTarget` above). A link location with "./", "../" or "//" past the common prefix falls outside it.
- `RelativePaths.RelativeSegmentsRoundTrip` holds only under `Reachable`, as `RelativePathRoundTrip` below.
- `RelativePaths.ClimbRoundTrip` holds only when the directories the `..` segments climb out of are plain names (`PlainBelow`); `Resolve` reads the directory of `from` literally and does not canonicalise it.
- `RelativePaths.RoundTripClimbing` holds only under `Reachable`, with the mismatch before `from`'s last segment.
- `RelativePaths.RoundTripCurrentDir` holds only under `Reachable`, with the mismatch at `from`'s last segment.
- `RelativePaths.RelativePathRoundTrip` holds only when the mismatch lies within `from`'s segments, something of `to` is left after a mismatch at `from`'s last segment, the directories of `from` past the mismatch are plain names (`PlainBelow`), and no segment of `to` past the mismatch is "." or "..". `Resolve` reads the directory of `from` literally; under `PlainBelow` that reading climbs out of the same directories the filesystem does. Outside these conditions the code need not produce a path back to `to`: identical paths give "", a path that only extends `from` gives the extension without the climb out of `from`'s last segment, and a link location written "./public/dist" gives a text that from /p/public names /vendor/a/b/dist (`RelativePathExamples.DotInLinkLocation`). Links inside the directory path of `from` are not followed either.

## Findings

| source | as written | input that shows it | evidently intended | confidence | as-written member | corrected member |
|---|---|---|---|---|---|---|
| src/Composer/Manager/FileManager.php:237 | the link text is computed with `is_dir($targetPath)`, asked before the link location is replaced; a directory there, or a link to one on a second install, gets a '/' appended, and the text is computed relative to the location itself instead of the directory holding it | project /p, package a/b, origin `lib`, link location `www`, with /p/www a directory: the text is `../vendor/a/b/lib`, which from /p names /vendor/a/b/lib | the text relative to the directory holding the link, `./vendor/a/b/lib`, which names /p/vendor/a/b/lib | not executed; high | `FileManager.AsWrittenLinkText`, `SymlinkFinding.ExistingDirectoryClimbsTooFar` | `FileManager.LinkText`, `FileManager.LinkTextRoundTrip`, `SymlinkFinding.LinkTextReachesOrigin` |

=== FILE: file_manager.dfy ===
/**
 * `FileManager`: the four file actions a manifest can ask for, each a loop
 * over the entries of its argument. An entry is checked and then acts on
 * the filesystem; an exception ends the loop and leaves the effects of the
 * entries before it in place.
 *
 * Each action is specified by a function on the world (filesystem and
 * console) that runs one entry, folded over the entries by `Run`; the class
 * `FileManager` does the same work by updating its fields in a loop and
 * proves it agrees with that specification.
 */
module FileManager {
  import opened PhpValues
  import opened Filesystem
  import RelativePaths

  datatype Exception = InvalidArgumentException(path: string) | RuntimeException(path: string)

  /** What the actions and the installer write to the console, without the message text. */
  datatype Message =
    | Copying(source: string, destination: string)
    | Removing(path: string)
    | Creating(path: string)
    | Symlinking(origin: string, link: string)
    | ActionError(action: string, error: Exception)
    | SkippingAction(action: string)

  datatype World = World(fs: FS, log: seq<Message>)

  /** The world after some work, and the exception that ended it, if any. */
  datatype Step = Step(world: World, thrown: Option<Exception>)

  // ---------------------------------------------------------------------
  // Running a loop body over entries, up to the first exception
  // ---------------------------------------------------------------------

  /** A `foreach` whose body is `step`: it stops at the first exception. */
  function Run<E>(w: World, es: seq<E>, step: (World, E) -> Step): Step
    decreases |es|
  {
    if es == [] then Step(w, None)
    else
      var before := Run(w, es[..|es| - 1], step);
      if before.thrown.Some? then before else step(before.world, es[|es| - 1])
  }

  /** One more iteration of the loop. */
  lemma RunAppend<E>(w: World, es: seq<E>, e: E, step: (World, E) -> Step)
    ensures Run(w, es + [e], step) ==
              var before := Run(w, es, step);
              if before.thrown.Some? then before else step(before.world, e)
  {
    assert (es + [e])[..|es|] == es;
  }

  /**
   * Running two runs of entries one after the other: the second starts from
   * where the first left the world, and does not start at all when the first
   * threw.
   */
  lemma {:induction false} RunConcat<E>(w: World, a: seq<E>, b: seq<E>, step: (World, E) -> Step)
    ensures Run(w, a + b, step) ==
              var first := Run(w, a, step);
              if first.thrown.Some? then first else Run(first.world, b, step)
    decreases |b|
  {
    if b == [] {
      assert a + b == a;
    } else {
      var b' := b[..|b| - 1];
      assert a + b == (a + b') + [b[|b| - 1]];
      assert b == b' + [b[|b| - 1]];
      RunConcat(w, a, b', step);
      RunAppend(w, a + b', b[|b| - 1], step);
      RunAppend(Run(w, a, step).world, b', b[|b| - 1], step);
    }
  }

  /** The loop after `i` entries, when none threw, runs entry `i` next. */
  lemma RunNext<E>(w: World, es: seq<E>, i: nat, step: (World, E) -> Step)
    requires i < |es| && Run(w, es[..i], step).thrown.None?
    ensures Run(w, es[..i + 1], step) == step(Run(w, es[..i], step).world, es[i])
  {
    RunAppend(w, es[..i], es[i], step);
    assert es[..i + 1] == es[..i] + [es[i]];
  }

  /** Once entry `i` throws, the entries after it change nothing. */
  lemma RunThrown<E>(w: World, es: seq<E>, i: nat, step: (World, E) -> Step)
    requires i < |es| && Run(w, es[..i + 1], step).thrown.Some?
    ensures Run(w, es, step) == Run(w, es[..i + 1], step)
  {
    RunConcat(w, es[..i + 1], es[i + 1..], step);
    assert es[..i + 1] + es[i + 1..] == es;
  }

  /**
   * When the entry after `before` throws, the run ends there with that
   * exception: the effects of `before` and of the throwing entry stay, the
   * entries in `after` are not processed.
   */
  lemma StopsAt<E>(w: World, before: seq<E>, e: E, after: seq<E>, step: (World, E) -> Step)
    requires Run(w, before, step).thrown.None?
    requires step(Run(w, before, step).world, e).thrown.Some?
    ensures Run(w, before + [e] + after, step) == step(Run(w, before, step).world, e)
  {
    RunAppend(w, before, e, step);
    RunConcat(w, before + [e], after, step);
  }

  // ---------------------------------------------------------------------
  // One entry of each action
  // ---------------------------------------------------------------------

  /** `vendor/<package>/<source>`, resolved in the working directory. */
  function PackagePath(cwd: string, package: string, p: string): string
  {
    cwd + "/vendor/" + package + "/" + p
  }

  /** `getcwd() . '/' . <path>`. */
  function ProjectPath(cwd: string, p: string): string
  {
    cwd + "/" + p
  }

  /**
   * Copy `source => destination` (lines 46-103): both must be relative; an
   * existing destination is left alone; a directory is copied as a tree;
   * copying a missing file throws.
   */
  function CopyEntry(cwd: string, package: string, w: World, e: Entry): Step
  {
    var source, destination := e.key, AsString(e.val);
    if IsAbsolutePath(source) then Step(w, Some(InvalidArgumentException(source)))
    else if IsAbsolutePath(destination) then Step(w, Some(InvalidArgumentException(destination)))
    else
      var src, dst := PackagePath(cwd, package, source), ProjectPath(cwd, destination);
      if Exists(w.fs, dst) then Step(w, None)
      else if IsDir(w.fs, src) then Step(World(CopyTree(w.fs, src, dst), w.log + [Copying(src, dst)]), None)
      else if !Exists(w.fs, src) then Step(w, Some(InvalidArgumentException(src)))
      else Step(World(w.fs[dst := w.fs[src]], w.log + [Copying(src, dst)]), None)
  }

  /** Remove one path (lines 139-166): it must be relative, and only a path that exists is removed. */
  function RemoveEntry(cwd: string, w: World, e: Entry): Step
  {
    var path := AsString(e.val);
    if IsAbsolutePath(path) then Step(w, Some(InvalidArgumentException(path)))
    else
      var file := ProjectPath(cwd, path);
      if Exists(w.fs, file) then Step(World(RemoveTree(w.fs, file), w.log + [Removing(file)]), None)
      else Step(w, None)
  }

  /**
   * Create one directory `path => permissions` (lines 180-204): the path
   * must be relative, and an existing path is left alone.
   */
  function CreateEntry(cwd: string, w: World, e: Entry): Step
  {
    var path := e.key;
    if IsAbsolutePath(path) then Step(w, Some(InvalidArgumentException(path)))
    else
      var file := ProjectPath(cwd, path);
      if Exists(w.fs, file) then Step(w, None)
      else Step(World(w.fs[file := Dir(Permissions(AsString(e.val)))], w.log + [Creating(file)]), None)
  }

  /**
   * The text of the link at `link` to `origin` as line 237 computes it:
   * `link` counts as a directory when one is there before it is replaced.
   */
  function AsWrittenLinkText(fs: FS, origin: string, link: string): string
  {
    RelativePaths.RelativePath(link, origin, IsDir(fs, link), IsDir(fs, origin))
  }

  /**
   * The text of the link at `link` to `origin`, relative to the directory
   * that contains the link, whatever is at `link` before it is replaced and
   * whether or not `link` ends in a separator.
   */
  function LinkText(fs: FS, origin: string, link: string): string
  {
    RelativePaths.RelativePath(RelativePaths.TrimSeparators(link), origin, false, IsDir(fs, origin))
  }

  /**
   * The two texts differ only when a directory is at the link location
   * before it is replaced, or the location ends in a separator.
   */
  lemma LinkTextAgrees(fs: FS, origin: string, link: string)
    ensures !IsDir(fs, link) && RelativePaths.TrimSeparators(link) == link ==>
              AsWrittenLinkText(fs, origin, link) == LinkText(fs, origin, link)
  {
  }

  /**
   * Symlink `origin` from one link location (lines 227-250): the location
   * must be relative and the origin must exist; whatever is at the location
   * is then replaced by the link.
   */
  function SymlinkTarget(cwd: string, package: string, origin: string, w: World, target: Value): Step
  {
    var t := AsString(target);
    if IsAbsolutePath(t) then Step(w, Some(InvalidArgumentException(t)))
    else
      var originPath, linkPath := PackagePath(cwd, package, origin), ProjectPath(cwd, t);
      var text := LinkText(w.fs, originPath, linkPath);
      if !Exists(w.fs, originPath) then Step(w, Some(RuntimeException(originPath)))
      else
        var cleared := if Exists(w.fs, linkPath) then RemoveTree(w.fs, linkPath) else w.fs;
        Step(World(cleared[linkPath := Link(text)], w.log + [Symlinking(originPath, linkPath)]), None)
  }

  function SymlinkTargetStep(cwd: string, package: string, origin: string): (World, Value) -> Step
  {
    (w, t) => SymlinkTarget(cwd, package, origin, w, t)
  }

  /**
   * Symlink one `origin => targets` entry (lines 218-251): the origin must be
   * relative; then every link location of `(array)$targets` in turn.
   */
  function SymlinkEntry(cwd: string, package: string, w: World, e: Entry): Step
  {
    if IsAbsolutePath(e.key) then Step(w, Some(InvalidArgumentException(e.key)))
    else Run(w, ToList(e.val), SymlinkTargetStep(cwd, package, e.key))
  }

  function CopyStep(cwd: string, package: string): (World, Entry) -> Step
  {
    (w, e) => CopyEntry(cwd, package, w, e)
  }

  function RemoveStep(cwd: string): (World, Entry) -> Step
  {
    (w, e) => RemoveEntry(cwd, w, e)
  }

  function CreateStep(cwd: string): (World, Entry) -> Step
  {
    (w, e) => CreateEntry(cwd, w, e)
  }

  function SymlinkStep(cwd: string, package: string): (World, Entry) -> Step
  {
    (w, e) => SymlinkEntry(cwd, package, w, e)
  }

  // ---------------------------------------------------------------------
  // The actions on the filesystem, updated in place
  // ---------------------------------------------------------------------

  /**
   * The filesystem and console the actions work on, in the working
   * directory `cwd`. An action returns the exception it throws, if any.
   */
  class FileManager {
    var fs: FS
    var log: seq<Message>
    const cwd: string

    constructor (cwd: string, fs: FS)
      ensures this.cwd == cwd && this.fs == fs && this.log == []
    {
      this.cwd := cwd;
      this.fs := fs;
      this.log := [];
    }

    function State(): World
      reads this
    {
      World(fs, log)
    }

    /** `$io->write($message)`. */
    method Write(m: Message)
      modifies this
      ensures fs == old(fs) && log == old(log) + [m]
    {
      log := log + [m];
    }

    /** `copy($files, $package, $io)` (lines 41-104). */
    method Copy(files: Value, package: string) returns (thrown: Option<Exception>)
      modifies this
      ensures Step(State(), thrown) == Run(old(State()), Elements(files), CopyStep(cwd, package))
    {
      var entries := Elements(files);
      ghost var start, step := State(), CopyStep(cwd, package);
      var i := 0;
      while i < |entries|
        invariant i <= |entries|
        invariant Step(State(), None) == Run(start, entries[..i], step)
      {
        RunNext(start, entries, i, step);
        thrown := CopyOne(package, entries[i]);
        if thrown.Some? {
          RunThrown(start, entries, i, step);
          return;
        }
        i := i + 1;
      }
      assert entries[..i] == entries;
      thrown := None;
    }

    /** One iteration of the copy loop (lines 48-101). */
    method CopyOne(package: string, e: Entry) returns (thrown: Option<Exception>)
      modifies this
      ensures Step(State(), thrown) == CopyEntry(cwd, package, old(State()), e)
    {
      var source, destination := e.key, AsString(e.val);
      if IsAbsolutePath(source) {
        return Some(InvalidArgumentException(source));
      }
      if IsAbsolutePath(destination) {
        return Some(InvalidArgumentException(destination));
      }
      var src, dst := PackagePath(cwd, package, source), ProjectPath(cwd, destination);
      if !Exists(fs, dst) {
        if IsDir(fs, src) {
          fs := CopyTree(fs, src, dst);
        } else if !Exists(fs, src) {
          return Some(InvalidArgumentException(src));
        } else {
          fs := fs[dst := fs[src]];
        }
        log := log + [Copying(src, dst)];
      }
      thrown := None;
    }

    /** `remove($files, $package, $io)` (lines 135-167). */
    method Remove(files: Value) returns (thrown: Option<Exception>)
      modifies this
      ensures Step(State(), thrown) == Run(old(State()), Elements(files), RemoveStep(cwd))
    {
      var entries := Elements(files);
      ghost var start, step := State(), RemoveStep(cwd);
      var i := 0;
      while i < |entries|
        invariant i <= |entries|
        invariant Step(State(), None) == Run(start, entries[..i], step)
      {
        ghost var next := RemoveEntry(cwd, State(), entries[i]);
        RunNext(start, entries, i, step);
        var path := AsString(entries[i].val);
        if IsAbsolutePath(path) {
          RunThrown(start, entries, i, step);
          return Some(InvalidArgumentException(path));
        }
        var file := ProjectPath(cwd, path);
        if Exists(fs, file) {
          fs := RemoveTree(fs, file);
          log := log + [Removing(file)];
        }
        assert Step(State(), None) == next;
        i := i + 1;
      }
      assert entries[..i] == entries;
      thrown := None;
    }

    /** `create($files, $package, $io)` (lines 176-205). */
    method Create(files: Value) returns (thrown: Option<Exception>)
      modifies this
      ensures Step(State(), thrown) == Run(old(State()), Elements(files), CreateStep(cwd))
    {
      var entries := Elements(files);
      ghost var start, step := State(), CreateStep(cwd);
      var i := 0;
      while i < |entries|
        invariant i <= |entries|
        invariant Step(State(), None) == Run(start, entries[..i], step)
      {
        ghost var next := CreateEntry(cwd, State(), entries[i]);
        RunNext(start, entries, i, step);
        var path := entries[i].key;
        if IsAbsolutePath(path) {
          RunThrown(start, entries, i, step);
          return Some(InvalidArgumentException(path));
        }
        var file := ProjectPath(cwd, path);
        if !Exists(fs, file) {
          log := log + [Creating(file)];
          fs := fs[file := Dir(Permissions(AsString(entries[i].val)))];
        }
        assert Step(State(), None) == next;
        i := i + 1;
      }
      assert entries[..i] == entries;
      thrown := None;
    }

    /** `symlink($files, $package, $io)` (lines 213-252). */
    method Symlink(files: Value, package: string) returns (thrown: Option<Exception>)
      modifies this
      ensures Step(State(), thrown) == Run(old(State()), Elements(files), SymlinkStep(cwd, package))
    {
      var entries := Elements(files);
      ghost var start, step := State(), SymlinkStep(cwd, package);
      var i := 0;
      while i < |entries|
        invariant i <= |entries|
        invariant Step(State(), None) == Run(start, entries[..i], step)
      {
        RunNext(start, entries, i, step);
        var origin := entries[i].key;
        if IsAbsolutePath(origin) {
          RunThrown(start, entries, i, step);
          return Some(InvalidArgumentException(origin));
        }
        thrown := SymlinkOrigin(package, origin, ToList(entries[i].val));
        assert Step(State(), thrown) == SymlinkEntry(cwd, package, Run(start, entries[..i], step).world, entries[i]);
        if thrown.Some? {
          RunThrown(start, entries, i, step);
          return;
        }
        i := i + 1;
      }
      assert entries[..i] == entries;
      thrown := None;
    }

    /** The inner loop of symlink (lines 227-250): every link location of one origin. */
    method SymlinkOrigin(package: string, origin: string, targets: seq<Value>) returns (thrown: Option<Exception>)
      modifies this
      ensures Step(State(), thrown) == Run(old(State()), targets, SymlinkTargetStep(cwd, package, origin))
    {
      ghost var start, step := State(), SymlinkTargetStep(cwd, package, origin);
      var j := 0;
      while j < |targets|
        invariant j <= |targets|
        invariant Step(State(), None) == Run(start, targets[..j], step)
      {
        ghost var next := SymlinkTarget(cwd, package, origin, State(), targets[j]);
        RunNext(start, targets, j, step);
        var target := AsString(targets[j]);
        if IsAbsolutePath(target) {
          RunThrown(start, targets, j, step);
          return Some(InvalidArgumentException(target));
        }
        var originPath, linkPath := PackagePath(cwd, package, origin), ProjectPath(cwd, target);
        var text := LinkText(fs, originPath, linkPath);
        if !Exists(fs, originPath) {
          RunThrown(start, targets, j, step);
          return Some(RuntimeException(originPath));
        }
        if Exists(fs, linkPath) {
          fs := RemoveTree(fs, linkPath);
        }
        log := log + [Symlinking(originPath, linkPath)];
        fs := fs[linkPath := Link(text)];
        assert Step(State(), None) == next;
        j := j + 1;
      }
      assert targets[..j] == targets;
      thrown := None;
    }
  }

  // ---------------------------------------------------------------------
  // What one entry does
  // ---------------------------------------------------------------------

  /**
   * A copy entry: an absolute source or destination throws before anything
   * changes; an existing destination is left alone; a missing source throws;
   * otherwise the destination is made (a tree for a directory) and nothing
   * outside it changes.
   */
  lemma CopyEntryEffect(cwd: string, package: string, w: World, e: Entry)
    ensures var r := CopyEntry(cwd, package, w, e);
            var source, destination := e.key, AsString(e.val);
            var src, dst := PackagePath(cwd, package, source), ProjectPath(cwd, destination);
            && (IsAbsolutePath(source) ==> r == Step(w, Some(InvalidArgumentException(source))))
            && (!IsAbsolutePath(source) && IsAbsolutePath(destination) ==> r == Step(w, Some(InvalidArgumentException(destination))))
            && (r.thrown.Some? ==> r.world == w)
            && (!IsAbsolutePath(source) && !IsAbsolutePath(destination) ==>
                  && (Exists(w.fs, dst) ==> r == Step(w, None))
                  && (r.thrown.Some? <==> !Exists(w.fs, dst) && !Exists(w.fs, src))
                  && (r.thrown.Some? ==> r.thrown == Some(InvalidArgumentException(src)))
                  && (!Exists(w.fs, dst) && Exists(w.fs, src) ==>
                        && dst in r.world.fs
                        && r.world.log == w.log + [Copying(src, dst)]
                        && (forall q :: q in w.fs && q != dst && !IsBelow(q, dst) ==> q in r.world.fs && r.world.fs[q] == w.fs[q])
                        && (forall q :: q in r.world.fs ==> q in w.fs || q == dst || IsBelow(q, dst))
                        && (IsDir(w.fs, src) ==>
                              && r.world.fs[dst] == Dir(DefaultMode)
                              && forall q :: q in w.fs && IsBelow(q, src) ==>
                                   Relocated(q, src, dst) in r.world.fs && r.world.fs[Relocated(q, src, dst)] == CopyOf(w.fs[q]))
                        && (!IsDir(w.fs, src) ==> r.world.fs[dst] == w.fs[src])))
  {
  }

  /**
   * A remove entry: an absolute path throws before anything changes; a path
   * that does not exist changes nothing; an existing path disappears with
   * everything below it, and nothing else changes.
   */
  lemma RemoveEntryEffect(cwd: string, w: World, e: Entry)
    ensures var r := RemoveEntry(cwd, w, e);
            var path := AsString(e.val);
            var file := ProjectPath(cwd, path);
            && (IsAbsolutePath(path) ==> r == Step(w, Some(InvalidArgumentException(path))))
            && (!IsAbsolutePath(path) ==> r.thrown.None?)
            && (!IsAbsolutePath(path) && !Exists(w.fs, file) ==> r.world == w)
            && (!IsAbsolutePath(path) && Exists(w.fs, file) ==>
                  && (forall q :: q in r.world.fs <==> q in w.fs && q != file && !IsBelow(q, file))
                  && (forall q :: q in r.world.fs ==> r.world.fs[q] == w.fs[q])
                  && r.world.log == w.log + [Removing(file)])
  {
  }

  /**
   * A create entry: an absolute path throws before anything changes; an
   * existing path is left alone; otherwise a directory with the requested
   * permissions appears there and nothing else changes.
   */
  lemma CreateEntryEffect(cwd: string, w: World, e: Entry)
    ensures var r := CreateEntry(cwd, w, e);
            var file := ProjectPath(cwd, e.key);
            && (IsAbsolutePath(e.key) ==> r == Step(w, Some(InvalidArgumentException(e.key))))
            && (!IsAbsolutePath(e.key) ==> r.thrown.None?)
            && (!IsAbsolutePath(e.key) && Exists(w.fs, file) ==> r.world == w)
            && (!IsAbsolutePath(e.key) && !Exists(w.fs, file) ==>
                  && IsDir(r.world.fs, file) && r.world.fs[file].mode == Permissions(AsString(e.val))
                  && (forall q :: q != file ==> (q in r.world.fs <==> q in w.fs)
                                                && (q in w.fs ==> r.world.fs[q] == w.fs[q]))
                  && r.world.log == w.log + [Creating(file)])
  {
  }

  /**
   * One link location of a symlink entry: an absolute location throws, and
   * so does a missing origin, both before the location is touched; otherwise
   * whatever was at the location, and below it, is replaced by the link and
   * nothing else changes.
   */
  lemma SymlinkTargetEffect(cwd: string, package: string, origin: string, w: World, target: Value)
    ensures var r := SymlinkTarget(cwd, package, origin, w, target);
            var t := AsString(target);
            var originPath, linkPath := PackagePath(cwd, package, origin), ProjectPath(cwd, t);
            && (IsAbsolutePath(t) ==> r == Step(w, Some(InvalidArgumentException(t))))
            && (!IsAbsolutePath(t) && !Exists(w.fs, originPath) ==> r == Step(w, Some(RuntimeException(originPath))))
            && (r.thrown.None? <==> !IsAbsolutePath(t) && Exists(w.fs, originPath))
            && (r.thrown.None? ==>
                  && linkPath in r.world.fs
                  && r.world.fs[linkPath] == Link(LinkText(w.fs, originPath, linkPath))
                  && (Exists(w.fs, linkPath) ==> forall q :: IsBelow(q, linkPath) ==> q !in r.world.fs)
                  && (forall q :: q != linkPath && !IsBelow(q, linkPath) ==>
                        (q in r.world.fs <==> q in w.fs) && (q in w.fs ==> r.world.fs[q] == w.fs[q]))
                  && r.world.log == w.log + [Symlinking(originPath, linkPath)])
  {
  }

  // ---------------------------------------------------------------------
  // Properties of whole runs
  // ---------------------------------------------------------------------

  /**
   * An absolute source or destination in a copy entry throws
   * InvalidArgumentException before anything else happens: the entries
   * before it keep their effects, the entries after it are not processed.
   */
  lemma CopyRejectsAbsolute(cwd: string, package: string, w: World, before: seq<Entry>, e: Entry, after: seq<Entry>)
    requires Run(w, before, CopyStep(cwd, package)).thrown.None?
    requires IsAbsolutePath(e.key) || IsAbsolutePath(AsString(e.val))
    ensures Run(w, before + [e] + after, CopyStep(cwd, package)) ==
              Step(Run(w, before, CopyStep(cwd, package)).world,
                   Some(InvalidArgumentException(if IsAbsolutePath(e.key) then e.key else AsString(e.val))))
  {
    StopsAt(w, before, e, after, CopyStep(cwd, package));
  }

  /** The same for remove. */
  lemma RemoveRejectsAbsolute(cwd: string, w: World, before: seq<Entry>, e: Entry, after: seq<Entry>)
    requires Run(w, before, RemoveStep(cwd)).thrown.None?
    requires IsAbsolutePath(AsString(e.val))
    ensures Run(w, before + [e] + after, RemoveStep(cwd)) ==
              Step(Run(w, before, RemoveStep(cwd)).world, Some(InvalidArgumentException(AsString(e.val))))
  {
    StopsAt(w, before, e, after, RemoveStep(cwd));
  }

  /** The same for create. */
  lemma CreateRejectsAbsolute(cwd: string, w: World, before: seq<Entry>, e: Entry, after: seq<Entry>)
    requires Run(w, before, CreateStep(cwd)).thrown.None?
    requires IsAbsolutePath(e.key)
    ensures Run(w, before + [e] + after, CreateStep(cwd)) ==
              Step(Run(w, before, CreateStep(cwd)).world, Some(InvalidArgumentException(e.key)))
  {
    StopsAt(w, before, e, after, CreateStep(cwd));
  }

  /** The same for the origin of a symlink entry. */
  lemma SymlinkRejectsAbsoluteOrigin(cwd: string, package: string, w: World, before: seq<Entry>, e: Entry, after: seq<Entry>)
    requires Run(w, before, SymlinkStep(cwd, package)).thrown.None?
    requires IsAbsolutePath(e.key)
    ensures Run(w, before + [e] + after, SymlinkStep(cwd, package)) ==
              Step(Run(w, before, SymlinkStep(cwd, package)).world, Some(InvalidArgumentException(e.key)))
  {
    StopsAt(w, before, e, after, SymlinkStep(cwd, package));
  }

  /**
   * A link location that is absolute, or an origin that does not exist,
   * ends the whole symlink action with the links made so far: the link
   * location is not removed, and no later location or entry is processed.
   */
  lemma SymlinkStopsAtTarget(cwd: string, package: string, w: World, e: Entry,
                             done: seq<Value>, t: Value, rest: seq<Value>, after: seq<Entry>)
    requires !IsAbsolutePath(e.key) && ToList(e.val) == done + [t] + rest
    requires Run(w, done, SymlinkTargetStep(cwd, package, e.key)).thrown.None?
    requires var reached := Run(w, done, SymlinkTargetStep(cwd, package, e.key)).world;
             IsAbsolutePath(AsString(t)) || !Exists(reached.fs, PackagePath(cwd, package, e.key))
    ensures var reached := Run(w, done, SymlinkTargetStep(cwd, package, e.key)).world;
            var r := Run(w, [e] + after, SymlinkStep(cwd, package));
            && r.world == reached
            && r.thrown == Some(if IsAbsolutePath(AsString(t)) then InvalidArgumentException(AsString(t))
                                else RuntimeException(PackagePath(cwd, package, e.key)))
  {
    var step := SymlinkTargetStep(cwd, package, e.key);
    StopsAt(w, done, t, rest, step);
    RunAppend(w, [], e, SymlinkStep(cwd, package));
    assert [] + [e] == [e];
    RunConcat(w, [e], after, SymlinkStep(cwd, package));
  }

  // ---------------------------------------------------------------------
  // The link text
  // ---------------------------------------------------------------------

  /**
   * The link made at `link` resolves, from the directory that contains it
   * (the location without any trailing separator, less its last segment),
   * to the origin, whenever the two paths part inside the link's own path.
   */
  lemma LinkTextRoundTrip(fs: FS, origin: string, link: string)
    requires var location := RelativePaths.TrimSeparators(link);
             RelativePaths.Reachable(RelativePaths.Segments(location, false), RelativePaths.Segments(origin, IsDir(fs, origin)))
    ensures var l := RelativePaths.Segments(RelativePaths.TrimSeparators(link), false);
            RelativePaths.Join(RelativePaths.Resolve(l[..|l| - 1], RelativePaths.Split(LinkText(fs, origin, link))))
              == RelativePaths.Normalize(origin, IsDir(fs, origin))
  {
    RelativePaths.RelativePathRoundTrip(RelativePaths.TrimSeparators(link), origin, false, IsDir(fs, origin));
  }
}

=== FILE: filesystem.dfy ===
/**
 * The filesystem the file actions work on, as a map from path to node. The
 * operations are those of Symfony's Filesystem component that the actions
 * call: `isAbsolutePath`, `exists`, `remove`, `mkdir`, `copy` and `symlink`,
 * and PHP's `is_dir`. Paths are compared as strings: "a/./b" and "a/b" are
 * different keys. Links are not followed.
 */
module Filesystem {
  import RelativePaths

  /** The permissions a directory was created with: mkdir's default, or an octal string from the manifest. */
  datatype Mode = DefaultMode | Permissions(octal: string)

  datatype Node = File(content: string) | Dir(mode: Mode) | Link(target: string)

  type FS = map<string, Node>

  predicate IsAlpha(c: char)
  {
    'a' <= c <= 'z' || 'A' <= c <= 'Z'
  }

  predicate IsSchemeChar(c: char)
  {
    IsAlpha(c) || '0' <= c <= '9' || c == '+' || c == '-' || c == '.'
  }

  /** The length of the leading run of characters a URL scheme may hold. */
  function SchemeLength(p: string): (n: nat)
    ensures n <= |p|
    ensures forall i :: 0 <= i < n ==> IsSchemeChar(p[i])
    ensures n < |p| ==> !IsSchemeChar(p[n])
  {
    if p != [] && IsSchemeChar(p[0]) then 1 + SchemeLength(p[1..]) else 0
  }

  /** `p` starts with a URL scheme followed by "://". */
  predicate HasScheme(p: string)
  {
    var n := SchemeLength(p);
    0 < n && n + 3 <= |p| && p[n] == ':' && p[n + 1] == '/' && p[n + 2] == '/'
  }

  /**
   * `Filesystem::isAbsolutePath`: a leading separator, a drive letter
   * followed by ':' and a separator, or a URL scheme.
   */
  predicate IsAbsolutePath(p: string)
  {
    p != [] &&
    (|| RelativePaths.IsSeparator(p[0])
     || (|p| > 3 && IsAlpha(p[0]) && p[1] == ':' && RelativePaths.IsSeparator(p[2]))
     || HasScheme(p))
  }

  /** `q` lies inside the directory `p`. */
  predicate IsBelow(q: string, p: string)
  {
    |p| < |q| && q[..|p| + 1] == p + "/"
  }

  /** `Filesystem::exists`. */
  predicate Exists(fs: FS, p: string)
  {
    p in fs
  }

  /** PHP's `is_dir`. */
  predicate IsDir(fs: FS, p: string)
  {
    p in fs && fs[p].Dir?
  }

  /** `Filesystem::remove`: `p` and everything below it disappear, nothing else changes. */
  function RemoveTree(fs: FS, p: string): (r: FS)
    ensures forall q :: q in r <==> q in fs && q != p && !IsBelow(q, p)
    ensures forall q :: q in r ==> r[q] == fs[q]
  {
    map q | q in fs && q != p && !IsBelow(q, p) :: fs[q]
  }

  /** Where the tree copy puts the entry `q` found below `src`. */
  function Relocated(q: string, src: string, dst: string): string
    requires |src| <= |q|
  {
    dst + q[|src|..]
  }

  /** A copied directory is made by `mkdir` with the default mode; anything else is copied as it is. */
  function CopyOf(n: Node): Node
  {
    if n.Dir? then Dir(DefaultMode) else n
  }

  /** Relocation is one-to-one on the entries below `src`. */
  lemma RelocatedInjective(q1: string, q2: string, src: string, dst: string)
    requires IsBelow(q1, src) && IsBelow(q2, src)
    requires Relocated(q1, src, dst) == Relocated(q2, src, dst)
    ensures q1 == q2
  {
    assert q1[|src|..] == Relocated(q1, src, dst)[|dst|..];
    assert q2[|src|..] == Relocated(q2, src, dst)[|dst|..];
    assert q1[..|src|] == src == q2[..|src|];
    assert q1 == q1[..|src|] + q1[|src|..];
    assert q2 == q2[..|src|] + q2[|src|..];
  }

  /** The entries below `src`, relocated below `dst`. */
  function CopiedEntries(fs: FS, src: string, dst: string): (r: FS)
    ensures forall q :: q in fs && IsBelow(q, src) ==> Relocated(q, src, dst) in r && r[Relocated(q, src, dst)] == CopyOf(fs[q])
    ensures forall t :: t in r ==> exists q :: q in fs && IsBelow(q, src) && t == Relocated(q, src, dst)
  {
    forall q1, q2 | q1 in fs && IsBelow(q1, src) && q2 in fs && IsBelow(q2, src) && Relocated(q1, src, dst) == Relocated(q2, src, dst)
      ensures q1 == q2
    {
      RelocatedInjective(q1, q2, src, dst);
    }
    map q | q in fs && IsBelow(q, src) :: Relocated(q, src, dst) := CopyOf(fs[q])
  }

  /**
   * The directory branch of copy: `mkdir($destination)`, then every entry
   * below `src` made again below `dst`, directories by `mkdir` and the rest
   * by `copy`.
   */
  function CopyTree(fs: FS, src: string, dst: string): (r: FS)
    ensures dst in r && r[dst] == Dir(DefaultMode)
    ensures forall q :: q in fs && IsBelow(q, src) ==> Relocated(q, src, dst) in r && r[Relocated(q, src, dst)] == CopyOf(fs[q])
    ensures forall q :: q in fs && q != dst && !IsBelow(q, dst) ==> q in r && r[q] == fs[q]
    ensures forall q :: q in r ==> q in fs || q == dst || IsBelow(q, dst)
  {
    var copied := CopiedEntries(fs, src, dst);
    forall t | t in copied ensures IsBelow(t, dst) {
      var q :| q in fs && IsBelow(q, src) && t == Relocated(q, src, dst);
      assert t[..|dst| + 1] == dst + "/";
    }
    fs[dst := Dir(DefaultMode)] + copied
  }
}

=== FILE: installer_plugin.dfy ===
/**
 * `InstallerPlugin`: after a package is installed or updated, the plugin
 * merges the package's "extra" section with the root project's, picks the
 * table of actions for the event, and runs every action the table lists for
 * that package. An action that throws is reported and the next one still
 * runs; an action name with no file action behind it is reported and
 * skipped.
 */
module InstallerPlugin {
  import opened PhpValues
  import opened FileManager

  datatype Package = Package(name: string, extra: seq<Entry>)

  datatype EventKind = Install | Update

  /** The public methods of FileManager an action name can reach. */
  datatype Action = CopyAction | RemoveAction | CreateAction | SymlinkAction

  /** The operation of a post-package-install event. */
  datatype InstallOperation = InstallOperation(package: Package)

  /** The operation of a post-package-update event: the package before and after. */
  datatype UpdateOperation = UpdateOperation(initial: Package, target: Package)

  // ---------------------------------------------------------------------
  // Choosing the actions
  // ---------------------------------------------------------------------

  /** The extras the actions come from (line 97): the root project's override the package's. */
  function Extras(package: Package, root: Package): seq<Entry>
  {
    ReplaceRecursive(package.extra, root.extra)
  }

  const FileManagement := "file-management"

  /** `"post-package-" . $type`. */
  function EventKey(kind: EventKind): string
  {
    if kind == Install then "post-package-install" else "post-package-update"
  }

  /**
   * The action table (lines 100-114): on install "file-management" is
   * preferred and "post-package-install" is the fallback; on update only
   * "post-package-update" counts. None when the key is not set, a null value
   * counting as not set.
   */
  function ActionTable(extras: seq<Entry>, kind: EventKind): (t: Option<Value>)
    ensures t.Some? <==> (kind == Install && IsSet(extras, FileManagement)) || IsSet(extras, EventKey(kind))
    ensures t.Some? ==> !t.value.Null?
    ensures kind == Install && IsSet(extras, FileManagement) ==> t == Lookup(extras, FileManagement)
    ensures t.Some? && t != Lookup(extras, FileManagement) ==> t == Lookup(extras, EventKey(kind))
    ensures kind == Update && t.Some? ==> t == Lookup(extras, "post-package-update")
  {
    if kind == Install && IsSet(extras, FileManagement) then Lookup(extras, FileManagement)
    else if IsSet(extras, EventKey(kind)) then Lookup(extras, EventKey(kind))
    else None
  }

  function LowerChar(c: char): char
  {
    if 'A' <= c <= 'Z' then (c as int + 32) as char else c
  }

  /** PHP method names ignore ASCII case. */
  function Lower(s: string): (r: string)
    ensures |r| == |s|
    ensures forall i :: 0 <= i < |s| ==> r[i] == LowerChar(s[i])
  {
    seq(|s|, i requires 0 <= i < |s| => LowerChar(s[i]))
  }

  function MethodName(a: Action): string
  {
    match a
    case CopyAction => "copy"
    case RemoveAction => "remove"
    case CreateAction => "create"
    case SymlinkAction => "symlink"
  }

  /** `method_exists($fm, $action)`, for the four file actions. */
  function ActionNamed(name: string): (a: Option<Action>)
    ensures a.Some? ==> Lower(name) == MethodName(a.value)
    ensures a.None? ==> forall x :: Lower(name) != MethodName(x)
  {
    var n := Lower(name);
    if n == "copy" then Some(CopyAction)
    else if n == "remove" then Some(RemoveAction)
    else if n == "create" then Some(CreateAction)
    else if n == "symlink" then Some(SymlinkAction)
    else None
  }

  /** Every file action is reached by its own name. */
  lemma ActionNamedMethodName(a: Action)
    ensures ActionNamed(MethodName(a)) == Some(a)
  {
    var n := MethodName(a);
    assert Lower(n) == n;
  }

  // ---------------------------------------------------------------------
  // Running the actions
  // ---------------------------------------------------------------------

  /** `$fm->$action($files, $package, $io)`. */
  function Apply(a: Action, cwd: string, package: string, files: Value, w: World): Step
  {
    match a
    case CopyAction => Run(w, Elements(files), CopyStep(cwd, package))
    case RemoveAction => Run(w, Elements(files), RemoveStep(cwd))
    case CreateAction => Run(w, Elements(files), CreateStep(cwd))
    case SymlinkAction => Run(w, Elements(files), SymlinkStep(cwd, package))
  }

  /** Whether the action entry `action => pkg_names` names the package (line 118). */
  predicate Selects(e: Entry, package: Package)
  {
    e.val.Arr? && HasKey(e.val.items, package.name)
  }

  /**
   * One entry of the action table (lines 118-135): run the action on the
   * value stored under the package's name, reporting an exception it throws,
   * or warn that there is no such action.
   */
  function DispatchEntry(cwd: string, package: Package, w: World, e: Entry): World
  {
    if !Selects(e, package) then w
    else
      match ActionNamed(e.key)
      case None => World(w.fs, w.log + [SkippingAction(e.key)])
      case Some(a) =>
        var s := Apply(a, cwd, package.name, Lookup(e.val.items, package.name).value, w);
        if s.thrown.Some? then World(s.world.fs, s.world.log + [ActionError(e.key, s.thrown.value)])
        else s.world
  }

  /** The body of the loop of lines 116-136: it never lets an exception out. */
  function DispatchStep(cwd: string, package: Package): (World, Entry) -> Step
  {
    (w, e) => Step(DispatchEntry(cwd, package, w, e), None)
  }

  /** `operate($event, $type, $package)` (lines 94-138), on the world `w`. */
  function Operation(cwd: string, kind: EventKind, package: Package, root: Package, w: World): World
  {
    match ActionTable(Extras(package, root), kind)
    case None => w
    case Some(table) => Run(w, Elements(table), DispatchStep(cwd, package)).world
  }

  /** `operate` over the filesystem and console of `fm`. */
  method Operate(fm: FileManager, kind: EventKind, package: Package, root: Package)
    modifies fm
    ensures fm.State() == Operation(fm.cwd, kind, package, root, old(fm.State()))
  {
    var extras := Extras(package, root);
    var table := ActionTable(extras, kind);
    if table.Some? {
      var entries := Elements(table.value);
      ghost var start, step := fm.State(), DispatchStep(fm.cwd, package);
      var i := 0;
      while i < |entries|
        invariant i <= |entries|
        invariant Run(start, entries[..i], step) == Step(fm.State(), None)
      {
        ghost var next := DispatchEntry(fm.cwd, package, fm.State(), entries[i]);
        RunNext(start, entries, i, step);
        var action, pkgNames := entries[i].key, entries[i].val;
        if pkgNames.Arr? && HasKey(pkgNames.items, package.name) {
          var files := Lookup(pkgNames.items, package.name).value;
          var a := ActionNamed(action);
          if a.None? {
            fm.Write(SkippingAction(action));
          } else {
            var thrown := Call(fm, a.value, files, package.name);
            if thrown.Some? {
              fm.Write(ActionError(action, thrown.value));
            }
          }
        }
        assert fm.State() == next;
        i := i + 1;
      }
      assert entries[..i] == entries;
    }
  }

  /** Calls the file action `a` of `fm`. */
  method Call(fm: FileManager, a: Action, files: Value, package: string) returns (thrown: Option<Exception>)
    modifies fm
    ensures Step(fm.State(), thrown) == Apply(a, fm.cwd, package, files, old(fm.State()))
  {
    match a
    case CopyAction => thrown := fm.Copy(files, package);
    case RemoveAction => thrown := fm.Remove(files);
    case CreateAction => thrown := fm.Create(files);
    case SymlinkAction => thrown := fm.Symlink(files, package);
  }

  /** `onPostPackageInstall` (lines 65-71): the installed package is the operation's package. */
  method OnPostPackageInstall(fm: FileManager, op: InstallOperation, root: Package)
    modifies fm
    ensures fm.State() == Operation(fm.cwd, Install, op.package, root, old(fm.State()))
  {
    Operate(fm, Install, op.package, root);
  }

  /** `onPostPackageUpdate` (lines 79-84): the updated package is the operation's target package. */
  method OnPostPackageUpdate(fm: FileManager, op: UpdateOperation, root: Package)
    modifies fm
    ensures fm.State() == Operation(fm.cwd, Update, op.target, root, old(fm.State()))
  {
    Operate(fm, Update, op.target, root);
  }

  // ---------------------------------------------------------------------
  // Properties
  // ---------------------------------------------------------------------

  /** No exception leaves the loop over the action table. */
  lemma {:induction false} DispatchNeverThrows(cwd: string, package: Package, w: World, es: seq<Entry>)
    ensures Run(w, es, DispatchStep(cwd, package)).thrown.None?
    decreases |es|
  {
    if es != [] {
      DispatchNeverThrows(cwd, package, w, es[..|es| - 1]);
    }
  }

  /**
   * The actions run in the table's order, each from the world the previous
   * ones left, whatever they threw: an exception in one action does not
   * keep the next one from running.
   */
  lemma DispatchInOrder(cwd: string, package: Package, w: World, before: seq<Entry>, e: Entry, after: seq<Entry>)
    ensures Run(w, before + [e] + after, DispatchStep(cwd, package)).world ==
              var reached := Run(w, before, DispatchStep(cwd, package)).world;
              Run(DispatchEntry(cwd, package, reached, e), after, DispatchStep(cwd, package)).world
  {
    var step := DispatchStep(cwd, package);
    DispatchNeverThrows(cwd, package, w, before);
    RunAppend(w, before, e, step);
    RunConcat(w, before + [e], after, step);
  }

  /**
   * One action entry: nothing happens unless the package's name is a key of
   * the entry's map; an unknown action only adds a warning; a known action
   * runs on exactly the value under the package's name, and an exception it
   * throws is reported after the effects it had made.
   */
  lemma DispatchEntryEffect(cwd: string, package: Package, w: World, e: Entry)
    ensures !Selects(e, package) ==> DispatchEntry(cwd, package, w, e) == w
    ensures Selects(e, package) && ActionNamed(e.key).None? ==>
              DispatchEntry(cwd, package, w, e) == World(w.fs, w.log + [SkippingAction(e.key)])
    ensures Selects(e, package) && ActionNamed(e.key).Some? ==>
              var s := Apply(ActionNamed(e.key).value, cwd, package.name, Lookup(e.val.items, package.name).value, w);
              var r := DispatchEntry(cwd, package, w, e);
              && r.fs == s.world.fs
              && r.log == s.world.log + (if s.thrown.Some? then [ActionError(e.key, s.thrown.value)] else [])
  {
  }

  /** Without an action table for the event, nothing happens. */
  lemma NoTableNoEffect(cwd: string, kind: EventKind, package: Package, root: Package, w: World)
    requires ActionTable(Extras(package, root), kind).None?
    ensures Operation(cwd, kind, package, root, w) == w
  {
  }

  /**
   * The root project decides the action table for an update: when it sets
   * "post-package-update", its table is merged over the package's when both
   * are arrays, its entries winning, and replaces the package's otherwise.
   */
  lemma RootTableWins(package: Package, root: Package)
    requires DistinctKeys(root.extra)
    requires var v := Lookup(root.extra, "post-package-update"); v.Some? && !v.value.Null?
    ensures var r, p := Lookup(root.extra, "post-package-update").value, Lookup(package.extra, "post-package-update");
            && (r.Arr? && p.Some? && p.value.Arr? ==>
                  ActionTable(Extras(package, root), Update) == Some(Arr(ReplaceRecursive(p.value.items, r.items))))
            && (!(r.Arr? && p.Some? && p.value.Arr?) ==> ActionTable(Extras(package, root), Update) == Some(r))
  {
    ReplaceRecursiveLookup(package.extra, root.extra, "post-package-update");
  }
}

=== FILE: php_values.dfy ===
/**
 * The PHP values a package manifest is made of: the "extra" section of a
 * package is a PHP array, that is an ORDERED map from keys to values, whose
 * values may themselves be arrays. Keys are kept as strings (an integer key is
 * kept in its decimal form, as PHP itself identifies "1" and 1).
 */
module PhpValues {

  datatype Option<+T> = None | Some(value: T)

  /** A manifest value: null, a scalar (kept as its string form) or an array. */
  datatype Value = Null | Str(s: string) | Arr(items: seq<Entry>)

  /** One `key => value` pair of a PHP array. */
  datatype Entry = Entry(key: string, val: Value)

  /** The keys of an array, in order. */
  function Keys(a: seq<Entry>): (ks: seq<string>)
    ensures |ks| == |a|
    ensures forall i :: 0 <= i < |a| ==> ks[i] == a[i].key
  {
    if a == [] then [] else [a[0].key] + Keys(a[1..])
  }

  /** PHP arrays never hold a key twice. */
  predicate DistinctKeys(a: seq<Entry>)
  {
    forall i, j :: 0 <= i < j < |a| ==> a[i].key != a[j].key
  }

  /** `$a[$k]`, None when the key is absent. */
  function Lookup(a: seq<Entry>, k: string): (r: Option<Value>)
    ensures r.Some? <==> k in Keys(a)
  {
    if a == [] then None
    else if a[0].key == k then Some(a[0].val)
    else Lookup(a[1..], k)
  }

  /** `array_key_exists($k, $a)`: true even when the value stored is null. */
  predicate HasKey(a: seq<Entry>, k: string)
  {
    k in Keys(a)
  }

  /** `isset($a[$k])`: the key is present and its value is not null. */
  predicate IsSet(a: seq<Entry>, k: string)
  {
    Lookup(a, k).Some? && !Lookup(a, k).value.Null?
  }

  /**
   * `$a[$k] = $v`: an existing key keeps its position and gets the new value,
   * a new key is appended at the end.
   */
  function Update(a: seq<Entry>, k: string, v: Value): (r: seq<Entry>)
    ensures Keys(r) == if k in Keys(a) then Keys(a) else Keys(a) + [k]
  {
    if a == [] then [Entry(k, v)]
    else if a[0].key == k then [Entry(k, v)] + a[1..]
    else [a[0]] + Update(a[1..], k, v)
  }

  /** After `$a[$k] = $v`, `$a[$k]` is `v` and every other key reads as before. */
  lemma {:induction false} UpdateLookup(a: seq<Entry>, k: string, v: Value, k': string)
    ensures Lookup(Update(a, k, v), k') == if k' == k then Some(v) else Lookup(a, k')
  {
    if a != [] && a[0].key != k {
      var r := Update(a, k, v);
      assert r[0] == a[0] && r[1..] == Update(a[1..], k, v);
      UpdateLookup(a[1..], k, v, k');
    }
  }

  /** The value `array_replace_recursive` stores under a key the replacement array has. */
  function Replaced(old_: Option<Value>, v: Value): Value
    decreases v
  {
    if v.Arr? && old_.Some? && old_.value.Arr? then Arr(ReplaceRecursive(old_.value.items, v.items))
    else v
  }

  /**
   * `array_replace_recursive($base, $repl)`: every entry of `repl`, in order,
   * replaces the entry of `base` with the same key, except that when both
   * values are arrays they are merged by the same rule.
   */
  function ReplaceRecursive(base: seq<Entry>, repl: seq<Entry>): seq<Entry>
    decreases repl
  {
    if repl == [] then base
    else
      var k, v := repl[0].key, repl[0].val;
      ReplaceRecursive(Update(base, k, Replaced(Lookup(base, k), v)), repl[1..])
  }

  /**
   * What the merged array holds under any key: the replacement wins, nested
   * arrays on both sides are merged, and a key only `base` has keeps its value.
   */
  lemma {:induction false} ReplaceRecursiveLookup(base: seq<Entry>, repl: seq<Entry>, k: string)
    requires DistinctKeys(repl)
    decreases repl
    ensures Lookup(ReplaceRecursive(base, repl), k) ==
              if Lookup(repl, k).None? then Lookup(base, k)
              else Some(Replaced(Lookup(base, k), Lookup(repl, k).value))
  {
    if repl != [] {
      var k0, v0 := repl[0].key, repl[0].val;
      var base' := Update(base, k0, Replaced(Lookup(base, k0), v0));
      DistinctTail(repl);
      ReplaceRecursiveLookup(base', repl[1..], k);
      UpdateLookup(base, k0, Replaced(Lookup(base, k0), v0), k);
    }
  }

  /** The rest of an array with distinct keys has distinct keys and lacks the first key. */
  lemma DistinctTail(a: seq<Entry>)
    requires a != [] && DistinctKeys(a)
    ensures DistinctKeys(a[1..]) && a[0].key !in Keys(a[1..])
  {
    forall i | 0 <= i < |a[1..]| ensures a[1..][i] == a[i + 1] { }
  }

  /** The keys of `repl`, in order, that `known` does not hold. */
  function NewKeys(known: seq<string>, repl: seq<Entry>): seq<string>
  {
    if repl == [] then []
    else if repl[0].key in known then NewKeys(known, repl[1..])
    else [repl[0].key] + NewKeys(known, repl[1..])
  }

  lemma {:induction false} NewKeysIgnoresAbsent(known: seq<string>, k: string, repl: seq<Entry>)
    requires k !in Keys(repl)
    ensures NewKeys(known + [k], repl) == NewKeys(known, repl)
  {
    if repl != [] {
      assert Keys(repl) == [repl[0].key] + Keys(repl[1..]);
      NewKeysIgnoresAbsent(known, k, repl[1..]);
    }
  }

  /** The first key of `repl` is new or not; the rest are judged with it known. */
  lemma NewKeysStep(known: seq<string>, repl: seq<Entry>)
    requires repl != [] && DistinctKeys(repl)
    ensures var extra := if repl[0].key in known then [] else [repl[0].key];
            NewKeys(known, repl) == extra + NewKeys(known + extra, repl[1..])
  {
    var k0 := repl[0].key;
    if k0 in known {
      assert known + [] == known;
    } else {
      DistinctTail(repl);
      NewKeysIgnoresAbsent(known, k0, repl[1..]);
    }
  }

  /**
   * The order of the merged array: the keys of `base` where they were, then
   * the keys only `repl` has, in `repl`'s order.
   */
  lemma {:induction false} ReplaceRecursiveKeys(base: seq<Entry>, repl: seq<Entry>)
    requires DistinctKeys(repl)
    decreases repl
    ensures Keys(ReplaceRecursive(base, repl)) == Keys(base) + NewKeys(Keys(base), repl)
  {
    if repl != [] {
      var k0 := repl[0].key;
      var base' := Update(base, k0, Replaced(Lookup(base, k0), repl[0].val));
      assert ReplaceRecursive(base, repl) == ReplaceRecursive(base', repl[1..]);
      DistinctTail(repl);
      ReplaceRecursiveKeys(base', repl[1..]);
      UpdateNewKeys(base, repl, base');
    }
  }

  /** One replacement entry moves its key, if new, from the new keys to the keys. */
  lemma UpdateNewKeys(base: seq<Entry>, repl: seq<Entry>, base': seq<Entry>)
    requires repl != [] && DistinctKeys(repl)
    requires base' == Update(base, repl[0].key, Replaced(Lookup(base, repl[0].key), repl[0].val))
    ensures Keys(base') + NewKeys(Keys(base'), repl[1..]) == Keys(base) + NewKeys(Keys(base), repl)
  {
    var k0 := repl[0].key;
    var extra := if k0 in Keys(base) then [] else [k0];
    assert Keys(base') == Keys(base) + extra;
    NewKeysStep(Keys(base), repl);
    AppendAssoc(Keys(base), extra, NewKeys(Keys(base) + extra, repl[1..]));
  }

  lemma AppendAssoc(a: seq<string>, b: seq<string>, c: seq<string>)
    ensures a + b + c == a + (b + c)
  {
  }

  /** PHP's string conversion of a scalar manifest value: null is "", an array "Array". */
  function AsString(v: Value): string
  {
    match v
    case Null => ""
    case Str(s) => s
    case Arr(_) => "Array"
  }

  /** The pairs `foreach ($v as $key => $value)` visits: none when `v` is not an array. */
  function Elements(v: Value): seq<Entry>
  {
    if v.Arr? then v.items else []
  }

  /** The values of `(array)$v`: null gives none, a scalar gives itself. */
  function ToList(v: Value): (vs: seq<Value>)
    ensures v.Null? ==> vs == []
    ensures v.Str? ==> vs == [v]
    ensures v.Arr? ==> |vs| == |v.items| && forall i :: 0 <= i < |vs| ==> vs[i] == v.items[i].val
  {
    match v
    case Null => []
    case Str(_) => [v]
    case Arr(items) => seq(|items|, i requires 0 <= i < |items| => items[i].val)
  }
}

=== FILE: relative_path_examples.dfy ===
/**
 * getRelativePath on concrete paths: a sibling, an upward traversal, a
 * descendant, two directories, whose trailing '/' the result keeps, and a
 * link location with a "." segment, where the result climbs too far.
 * Each example splits its paths ("/a/b/c.txt" into "", "a", "b" and
 * "c.txt") and then compares the segments.
 */
module RelativePathExamples {
  import opened RelativePaths

  /** The first mismatch is where the segments first differ. */
  lemma MismatchAt(f: seq<string>, t: seq<string>, d: nat)
    requires d < |f| && d <= |t| && f[..d] == t[..d]
    requires d == |t| || f[d] != t[d]
    ensures FirstMismatch(f, t) == d
  {
  }

  /** A file path made of plain segments splits back into them. */
  lemma FileSplits(segs: seq<string>, p: string)
    requires segs != [] && Join(segs) == p
    requires forall i :: 0 <= i < |segs| ==> '/' !in segs[i] && '\\' !in segs[i]
    ensures Segments(p, false) == segs
  {
    PlainSegments(segs);
  }

  /** A directory path with its trailing '/' splits into its segments and a last empty one. */
  lemma DirectorySplits(segs: seq<string>, p: string)
    requires segs != [] && segs[|segs| - 1] != "" && Join(segs) == p
    requires forall i :: 0 <= i < |segs| ==> '/' !in segs[i] && '\\' !in segs[i]
    ensures Segments(p + "/", true) == segs + [""]
  {
    PlainDirectorySegments(segs);
    NormalizeDirectory(p, "/");
  }

  /** getRelativePath on two paths, from the segments they split into. */
  lemma Compared(from: string, to: string, fromIsDir: bool, toIsDir: bool, f: seq<string>, t: seq<string>, r: string)
    requires Segments(from, fromIsDir) == f && Segments(to, toIsDir) == t
    requires Join(RelativeSegments(f, t)) == r
    ensures RelativePath(from, to, fromIsDir, toIsDir) == r
  {
  }

  /** from /a/b/c.txt to /a/b/d.txt: ./d.txt */
  lemma SiblingFile()
    ensures RelativePath("/a/b/c.txt", "/a/b/d.txt", false, false) == "./d.txt"
  {
    SiblingFrom();
    SiblingTo();
    SiblingSegments();
    Compared("/a/b/c.txt", "/a/b/d.txt", false, false, ["", "a", "b", "c.txt"], ["", "a", "b", "d.txt"], "./d.txt");
  }

  lemma SiblingFrom()
    ensures Segments("/a/b/c.txt", false) == ["", "a", "b", "c.txt"]
  {
    JoinFour("", "a", "b", "c.txt");
    FileSplits(["", "a", "b", "c.txt"], "/a/b/c.txt");
  }

  lemma SiblingTo()
    ensures Segments("/a/b/d.txt", false) == ["", "a", "b", "d.txt"]
  {
    JoinFour("", "a", "b", "d.txt");
    FileSplits(["", "a", "b", "d.txt"], "/a/b/d.txt");
  }

  lemma SiblingSegments()
    ensures Join(RelativeSegments(["", "a", "b", "c.txt"], ["", "a", "b", "d.txt"])) == "./d.txt"
  {
    var f, t := ["", "a", "b", "c.txt"], ["", "a", "b", "d.txt"];
    MismatchAt(f, t, 3);
    RelativeSegmentsCurrentDir(f, t);
    assert "./" + "d.txt" == "./d.txt";
  }

  /** from /a/b/c/file.txt to /a/x.txt: ../../x.txt */
  lemma UpwardTraversal()
    ensures RelativePath("/a/b/c/file.txt", "/a/x.txt", false, false) == "../../x.txt"
  {
    UpwardFrom();
    UpwardTo();
    UpwardSegments();
    Compared("/a/b/c/file.txt", "/a/x.txt", false, false, ["", "a", "b", "c", "file.txt"], ["", "a", "x.txt"], "../../x.txt");
  }

  lemma UpwardFromJoined()
    ensures Join(["", "a", "b", "c", "file.txt"]) == "/a/b/c/file.txt"
  {
    JoinFive("", "a", "b", "c", "file.txt");
  }

  lemma UpwardFrom()
    ensures Segments("/a/b/c/file.txt", false) == ["", "a", "b", "c", "file.txt"]
  {
    UpwardFromJoined();
    FileSplits(["", "a", "b", "c", "file.txt"], "/a/b/c/file.txt");
  }

  lemma UpwardTo()
    ensures Segments("/a/x.txt", false) == ["", "a", "x.txt"]
  {
    JoinThree("", "a", "x.txt");
    FileSplits(["", "a", "x.txt"], "/a/x.txt");
  }

  lemma UpwardSegments()
    ensures Join(RelativeSegments(["", "a", "b", "c", "file.txt"], ["", "a", "x.txt"])) == "../../x.txt"
  {
    var f, t := ["", "a", "b", "c", "file.txt"], ["", "a", "x.txt"];
    MismatchAt(f, t, 2);
    RelativeSegmentsClimb(f, t);
    assert Repeat("..", 2) + t[2..] == ["..", "..", "x.txt"];
  }

  /** from /a/file.txt to /a/sub/dir/target.txt: ./sub/dir/target.txt */
  lemma Descendant()
    ensures RelativePath("/a/file.txt", "/a/sub/dir/target.txt", false, false) == "./sub/dir/target.txt"
  {
    DescendantFrom();
    DescendantTo();
    DescendantSegments();
    DescendantText();
    Compared("/a/file.txt", "/a/sub/dir/target.txt", false, false,
             ["", "a", "file.txt"], ["", "a", "sub", "dir", "target.txt"], "./sub/dir/target.txt");
  }

  lemma DescendantFrom()
    ensures Segments("/a/file.txt", false) == ["", "a", "file.txt"]
  {
    JoinThree("", "a", "file.txt");
    FileSplits(["", "a", "file.txt"], "/a/file.txt");
  }

  lemma DescendantToJoined()
    ensures Join(["", "a", "sub", "dir", "target.txt"]) == "/a/sub/dir/target.txt"
  {
    JoinFive("", "a", "sub", "dir", "target.txt");
  }

  lemma DescendantTo()
    ensures Segments("/a/sub/dir/target.txt", false) == ["", "a", "sub", "dir", "target.txt"]
  {
    DescendantToJoined();
    FileSplits(["", "a", "sub", "dir", "target.txt"], "/a/sub/dir/target.txt");
  }

  lemma DescendantSegments()
    ensures RelativeSegments(["", "a", "file.txt"], ["", "a", "sub", "dir", "target.txt"]) == ["./sub", "dir", "target.txt"]
  {
    var f, t := ["", "a", "file.txt"], ["", "a", "sub", "dir", "target.txt"];
    MismatchAt(f, t, 2);
    RelativeSegmentsCurrentDir(f, t);
    assert "./" + "sub" == "./sub";
    assert ["./" + t[2]] + t[3..] == ["./sub", "dir", "target.txt"];
  }

  lemma DescendantText()
    ensures Join(["./sub", "dir", "target.txt"]) == "./sub/dir/target.txt"
  {
    JoinThree("./sub", "dir", "target.txt");
  }

  /** from the directory /proj/pkg/vendor/lib/ to the directory /proj/public/lib/: ../../../public/lib/ */
  lemma Directories()
    ensures RelativePath("/proj/pkg/vendor/lib/", "/proj/public/lib/", true, true) == "../../../public/lib/"
  {
    DirectoriesFrom();
    DirectoriesTo();
    DirectorySegments();
    DirectoryText();
    Compared("/proj/pkg/vendor/lib/", "/proj/public/lib/", true, true,
             ["", "proj", "pkg", "vendor", "lib", ""], ["", "proj", "public", "lib", ""], "../../../public/lib/");
  }

  lemma DirectoriesFromJoined()
    ensures Join(["", "proj", "pkg", "vendor", "lib"]) == "/proj/pkg/vendor/lib"
  {
    JoinFive("", "proj", "pkg", "vendor", "lib");
  }

  lemma DirectoriesFrom()
    ensures Segments("/proj/pkg/vendor/lib/", true) == ["", "proj", "pkg", "vendor", "lib", ""]
  {
    DirectoriesFromJoined();
    DirectorySplits(["", "proj", "pkg", "vendor", "lib"], "/proj/pkg/vendor/lib");
    assert "/proj/pkg/vendor/lib" + "/" == "/proj/pkg/vendor/lib/";
    assert ["", "proj", "pkg", "vendor", "lib"] + [""] == ["", "proj", "pkg", "vendor", "lib", ""];
  }

  lemma DirectoriesTo()
    ensures Segments("/proj/public/lib/", true) == ["", "proj", "public", "lib", ""]
  {
    JoinFour("", "proj", "public", "lib");
    DirectorySplits(["", "proj", "public", "lib"], "/proj/public/lib");
    assert "/proj/public/lib" + "/" == "/proj/public/lib/";
    assert ["", "proj", "public", "lib"] + [""] == ["", "proj", "public", "lib", ""];
  }

  /**
   * A link location written "./public/dist", in the project /p, for the
   * origin /p/vendor/a/b/dist: the mismatch is at the "." segment, so the
   * result climbs out of "." as if it were a directory. Read literally the
   * text leads back to the origin; from the directory /p/public that really
   * holds the link it names /vendor/a/b/dist. `Reachable` excludes the case.
   */
  lemma DotInLinkLocation()
    ensures var f, t := Segments("/p/./public/dist", false), Segments("/p/vendor/a/b/dist", false);
            var text := Split(Join(RelativeSegments(f, t)));
            && text == ["..", "..", "vendor", "a", "b", "dist"]
            && !Reachable(f, t)
            && Resolve(f[..|f| - 1], text) == t
            && Resolve(["", "p", "public"], text) == ["", "vendor", "a", "b", "dist"]
  {
    DotFrom();
    DotTo();
    DotFacts(Segments("/p/./public/dist", false), Segments("/p/vendor/a/b/dist", false));
  }

  lemma DotFacts(f: seq<string>, t: seq<string>)
    requires f == ["", "p", ".", "public", "dist"] && t == ["", "p", "vendor", "a", "b", "dist"]
    ensures var text := Split(Join(RelativeSegments(f, t)));
            && text == ["..", "..", "vendor", "a", "b", "dist"]
            && !Reachable(f, t)
            && Resolve(f[..|f| - 1], text) == t
            && Resolve(["", "p", "public"], text) == ["", "vendor", "a", "b", "dist"]
  {
    DotText();
    DotNotReachable();
    DotResolved();
    assert f[..|f| - 1] == ["", "p", ".", "public"];
  }

  lemma DotText()
    ensures Split(Join(RelativeSegments(["", "p", ".", "public", "dist"], ["", "p", "vendor", "a", "b", "dist"])))
              == ["..", "..", "vendor", "a", "b", "dist"]
  {
    DotSegments();
    SplitJoin(["..", "..", "vendor", "a", "b", "dist"]);
  }

  lemma DotNotReachable()
    ensures !Reachable(["", "p", ".", "public", "dist"], ["", "p", "vendor", "a", "b", "dist"])
  {
    var f, t := ["", "p", ".", "public", "dist"], ["", "p", "vendor", "a", "b", "dist"];
    MismatchAt(f, t, 2);
    assert f[2] == ".";
  }

  /** Read literally from ["", "p", "."] the text reaches the origin; from /p/public it does not. */
  lemma DotResolved()
    ensures var text := ["..", "..", "vendor", "a", "b", "dist"];
            && Resolve(["", "p", ".", "public"], text) == ["", "p", "vendor", "a", "b", "dist"]
            && Resolve(["", "p", "public"], text) == ["", "vendor", "a", "b", "dist"]
  {
    var rest := ["vendor", "a", "b", "dist"];
    assert Repeat("..", 2) + rest == ["..", "..", "vendor", "a", "b", "dist"];
    ClimbDescend(["", "p", ".", "public"], 2, rest);
    assert ["", "p"] + rest == ["", "p", "vendor", "a", "b", "dist"];
    ClimbDescend(["", "p", "public"], 2, rest);
    assert [""] + rest == ["", "vendor", "a", "b", "dist"];
  }

  lemma DotFrom()
    ensures Segments("/p/./public/dist", false) == ["", "p", ".", "public", "dist"]
  {
    DotFromJoined();
    FileSplits(["", "p", ".", "public", "dist"], "/p/./public/dist");
  }

  lemma DotFromJoined()
    ensures Join(["", "p", ".", "public", "dist"]) == "/p/./public/dist"
  {
    JoinFive("", "p", ".", "public", "dist");
  }

  lemma DotTo()
    ensures Segments("/p/vendor/a/b/dist", false) == ["", "p", "vendor", "a", "b", "dist"]
  {
    DotToJoined();
    FileSplits(["", "p", "vendor", "a", "b", "dist"], "/p/vendor/a/b/dist");
  }

  lemma DotToJoined()
    ensures Join(["", "p", "vendor", "a", "b", "dist"]) == "/p/vendor/a/b/dist"
  {
    JoinFive("p", "vendor", "a", "b", "dist");
    JoinCons("", ["p", "vendor", "a", "b", "dist"]);
    assert [""] + ["p", "vendor", "a", "b", "dist"] == ["", "p", "vendor", "a", "b", "dist"];
  }

  lemma DotSegments()
    ensures RelativeSegments(["", "p", ".", "public", "dist"], ["", "p", "vendor", "a", "b", "dist"])
              == ["..", "..", "vendor", "a", "b", "dist"]
  {
    var f, t := ["", "p", ".", "public", "dist"], ["", "p", "vendor", "a", "b", "dist"];
    MismatchAt(f, t, 2);
    RelativeSegmentsClimb(f, t);
    assert Repeat("..", 2) + t[2..] == ["..", "..", "vendor", "a", "b", "dist"];
  }

  lemma DirectoryText()
    ensures Join(["..", "..", "..", "public", "lib", ""]) == "../../../public/lib/"
  {
    JoinThree("public", "lib", "");
    JoinThree("..", "..", "..");
    JoinConcat(["..", "..", ".."], ["public", "lib", ""]);
    assert ["..", "..", ".."] + ["public", "lib", ""] == ["..", "..", "..", "public", "lib", ""];
    assert "../../.." + "/" + "public/lib/" == "../../../public/lib/";
  }

  lemma JoinThree(a: string, b: string, c: string)
    ensures Join([a, b, c]) == a + "/" + b + "/" + c
  {
    assert [b, c][1..] == [c];
    assert Join([b, c]) == b + "/" + c;
    assert [a, b, c][1..] == [b, c];
    assert Join([a, b, c]) == a + "/" + (b + "/" + c);
  }

  lemma JoinFour(a: string, b: string, c: string, d: string)
    ensures Join([a, b, c, d]) == a + "/" + b + "/" + c + "/" + d
  {
    JoinThree(b, c, d);
    JoinCons(a, [b, c, d]);
    assert [a] + [b, c, d] == [a, b, c, d];
  }

  lemma JoinFive(a: string, b: string, c: string, d: string, e: string)
    ensures Join([a, b, c, d, e]) == a + "/" + b + "/" + c + "/" + d + "/" + e
  {
    JoinThree(c, d, e);
    JoinCons(b, [c, d, e]);
    assert [b] + [c, d, e] == [b, c, d, e];
    JoinCons(a, [b, c, d, e]);
    assert [a] + [b, c, d, e] == [a, b, c, d, e];
  }

  lemma {:induction false} JoinConcat(a: seq<string>, b: seq<string>)
    requires a != [] && b != []
    ensures Join(a + b) == Join(a) + "/" + Join(b)
    decreases |a|
  {
    if |a| == 1 {
      assert (a + b)[1..] == b;
    } else {
      assert (a + b)[1..] == a[1..] + b;
      JoinConcat(a[1..], b);
    }
  }

  lemma DirectorySegments()
    ensures RelativeSegments(["", "proj", "pkg", "vendor", "lib", ""], ["", "proj", "public", "lib", ""]) == ["..", "..", "..", "public", "lib", ""]
  {
    var f, t := ["", "proj", "pkg", "vendor", "lib", ""], ["", "proj", "public", "lib", ""];
    MismatchAt(f, t, 2);
    RelativeSegmentsClimb(f, t);
    assert Repeat("..", 3) + t[2..] == ["..", "..", "..", "public", "lib", ""];
  }
}

=== FILE: relative_paths.dfy ===
/**
 * `FileManager::getRelativePath($from, $to)`: the path, relative to the
 * directory that contains `from`, under which `to` is found. The symlink
 * action stores it in a link so that the link survives moving the project.
 *
 * The path separator is fixed to '/'. Whether an input names a directory
 * (PHP's `is_dir`) is a parameter.
 */
module RelativePaths {

  predicate IsSeparator(c: char)
  {
    c == '/' || c == '\\'
  }

  /** `rtrim($p, '\/')`: drop the trailing run of '/' and '\' characters. */
  function TrimSeparators(p: string): (r: string)
    ensures r <= p
    ensures r == [] || !IsSeparator(r[|r| - 1])
    ensures forall i :: |r| <= i < |p| ==> IsSeparator(p[i])
  {
    if p != [] && IsSeparator(p[|p| - 1]) then TrimSeparators(p[..|p| - 1]) else p
  }

  /** `str_replace('\\', '/', $p)`. */
  function ForwardSlashes(p: string): string
  {
    seq(|p|, i requires 0 <= i < |p| => if p[i] == '\\' then '/' else p[i])
  }

  /** Lines 262-265: a directory ends in exactly one '/', and '\' becomes '/'. */
  function Normalize(p: string, isDir: bool): string
  {
    ForwardSlashes(if isDir then TrimSeparators(p) + "/" else p)
  }

  /** `explode('/', $s)`: the segments between separators; "" gives [""]. */
  function Split(s: string): (segs: seq<string>)
    ensures |segs| >= 1
    ensures forall i :: 0 <= i < |segs| ==> '/' !in segs[i]
  {
    if s == [] then [""]
    else
      var rest := Split(s[1..]);
      if s[0] == '/' then [""] + rest
      else [[s[0]] + rest[0]] + rest[1..]
  }

  /** `implode('/', $segs)`. */
  function Join(segs: seq<string>): string
  {
    if segs == [] then ""
    else if |segs| == 1 then segs[0]
    else segs[0] + "/" + Join(segs[1..])
  }

  /** The segments getRelativePath compares (lines 262-268). */
  function Segments(p: string, isDir: bool): (segs: seq<string>)
    ensures |segs| >= 1
  {
    Split(Normalize(p, isDir))
  }

  /**
   * The first depth at which the two segment sequences differ, a depth past
   * the end of `to` counting as a difference (PHP reads null there).
   */
  function FirstMismatch(from: seq<string>, to: seq<string>): (d: nat)
    ensures d <= |from| && d <= |to|
    ensures forall i :: 0 <= i < d ==> from[i] == to[i]
    ensures d < |from| ==> d == |to| || from[d] != to[d]
  {
    if from == [] || to == [] || from[0] != to[0] then 0
    else 1 + FirstMismatch(from[1..], to[1..])
  }

  /** `n` copies of `v`. */
  function Repeat(v: string, n: nat): (r: seq<string>)
    ensures |r| == n
    ensures forall i :: 0 <= i < n ==> r[i] == v
  {
    seq(n, _ => v)
  }

  /** `array_shift`: drop the first element, if any. */
  function Shift(a: seq<string>): seq<string>
  {
    if a == [] then [] else a[1..]
  }

  /**
   * `array_pad($a, $size, $v)`: pad `a` with `v` up to |size| elements, at the
   * end when `size` is positive and at the front when it is negative.
   */
  function ArrayPad(a: seq<string>, size: int, v: string): (r: seq<string>)
    ensures size < -|a| ==> |r| == -size && r[|r| - |a|..] == a
    ensures size > |a| ==> |r| == size && r[..|a|] == a
    ensures -|a| <= size <= |a| ==> r == a
    ensures size < -|a| ==> forall i :: 0 <= i < |r| - |a| ==> r[i] == v
    ensures size > |a| ==> forall i :: |a| <= i < |r| ==> r[i] == v
  {
    var n := if size < 0 then -size else size;
    if n <= |a| then a
    else if size > 0 then a + Repeat(v, n - |a|)
    else Repeat(v, n - |a|) + a
  }

  /** Line 286: `$relPath[0] = './' . $relPath[0]`; a missing element reads as "". */
  function PrefixCurrentDir(a: seq<string>): seq<string>
  {
    if a == [] then ["./"] else a[0 := "./" + a[0]]
  }

  /**
   * The loop of lines 272-289 from `depth` on, with `relPath` its current
   * value: a matching segment is shifted off, the first mismatch before the
   * last segment of `from` pads with '..' and stops, a mismatch at the last
   * segment prefixes "./".
   */
  function Scan(from: seq<string>, to: seq<string>, depth: nat, relPath: seq<string>): seq<string>
    requires depth <= |from|
    decreases |from| - depth
  {
    if depth == |from| then relPath
    else if depth < |to| && from[depth] == to[depth] then Scan(from, to, depth + 1, Shift(relPath))
    else
      var remaining := |from| - depth;
      if remaining > 1 then ArrayPad(relPath, -(|relPath| + remaining - 1), "..")
      else Scan(from, to, depth + 1, PrefixCurrentDir(relPath))
  }

  /** The segments of the result, before they are joined. */
  function RelativeSegments(from: seq<string>, to: seq<string>): seq<string>
  {
    Scan(from, to, 0, to)
  }

  /** The string getRelativePath returns. */
  function RelativePath(from: string, to: string, fromIsDir: bool, toIsDir: bool): string
  {
    Join(RelativeSegments(Segments(from, fromIsDir), Segments(to, toIsDir)))
  }

  /** getRelativePath as written: lines 262-268 normalise and split, the loop of lines 272-289 compares, line 291 joins. */
  method GetRelativePath(from: string, to: string, fromIsDir: bool, toIsDir: bool) returns (r: string)
    ensures r == RelativePath(from, to, fromIsDir, toIsDir)
  {
    var f := Split(ForwardSlashes(if fromIsDir then TrimSeparators(from) + "/" else from));
    var t := Split(ForwardSlashes(if toIsDir then TrimSeparators(to) + "/" else to));
    var relPath := CompareSegments(f, t);
    r := Join(relPath);
  }

  /** The loop of lines 272-289: walk `f` against `t`, starting from `relPath = t`. */
  method CompareSegments(f: seq<string>, t: seq<string>) returns (relPath: seq<string>)
    ensures relPath == RelativeSegments(f, t)
  {
    relPath := t;
    var depth := 0;
    while depth < |f|
      invariant depth <= |f|
      invariant Scan(f, t, depth, relPath) == RelativeSegments(f, t)
    {
      if depth < |t| && f[depth] == t[depth] {
        ScanMatch(f, t, depth, relPath);
        relPath := Shift(relPath);
      } else {
        var remaining := |f| - depth;
        if remaining > 1 {
          var padLength := (|relPath| + remaining - 1) * -1;
          ScanPad(f, t, depth, relPath);
          relPath := ArrayPad(relPath, padLength, "..");
          break;
        } else {
          ScanLast(f, t, depth, relPath);
          relPath := PrefixCurrentDir(relPath);
        }
      }
      depth := depth + 1;
    }
  }

  /** A matching segment is shifted off and the scan goes on. */
  lemma ScanMatch(f: seq<string>, t: seq<string>, depth: nat, relPath: seq<string>)
    requires depth < |f| && depth < |t| && f[depth] == t[depth]
    ensures Scan(f, t, depth, relPath) == Scan(f, t, depth + 1, Shift(relPath))
  {
  }

  /** A mismatch before the last segment of `f` pads with ".." and ends the scan. */
  lemma ScanPad(f: seq<string>, t: seq<string>, depth: nat, relPath: seq<string>)
    requires depth < |f| - 1 && !(depth < |t| && f[depth] == t[depth])
    ensures Scan(f, t, depth, relPath) == ArrayPad(relPath, (|relPath| + (|f| - depth) - 1) * -1, "..")
  {
  }

  /** A mismatch at the last segment of `f` prefixes "./" and the scan goes on. */
  lemma ScanLast(f: seq<string>, t: seq<string>, depth: nat, relPath: seq<string>)
    requires depth == |f| - 1 && !(depth < |t| && f[depth] == t[depth])
    ensures Scan(f, t, depth, relPath) == Scan(f, t, depth + 1, PrefixCurrentDir(relPath))
  {
  }

  // ---------------------------------------------------------------------
  // The shape of the result
  // ---------------------------------------------------------------------

  /** Walking the common prefix only shifts `to`'s leading segments off. */
  lemma {:induction false} ScanCommonPrefix(from: seq<string>, to: seq<string>, i: nat)
    requires i <= FirstMismatch(from, to)
    ensures Scan(from, to, i, to[i..]) == Scan(from, to, FirstMismatch(from, to), to[FirstMismatch(from, to)..])
    decreases FirstMismatch(from, to) - i
  {
    if i < FirstMismatch(from, to) {
      assert Shift(to[i..]) == to[i + 1..];
      ScanCommonPrefix(from, to, i + 1);
    }
  }

  /**
   * A mismatch at depth d with more than one segment of `from` left gives
   * |from|-d-1 '..' segments followed by the segments of `to` from d on.
   */
  lemma RelativeSegmentsClimb(from: seq<string>, to: seq<string>)
    requires FirstMismatch(from, to) < |from| - 1
    ensures RelativeSegments(from, to) == Repeat("..", |from| - FirstMismatch(from, to) - 1) + to[FirstMismatch(from, to)..]
  {
    ScanCommonPrefix(from, to, 0);
  }

  /**
   * A mismatch at the last segment of `from` adds no '..': the first
   * remaining segment of `to` is prefixed by "./" (alone when none remains).
   */
  lemma RelativeSegmentsCurrentDir(from: seq<string>, to: seq<string>)
    requires FirstMismatch(from, to) == |from| - 1
    ensures var d := FirstMismatch(from, to);
            RelativeSegments(from, to) == if d < |to| then ["./" + to[d]] + to[d + 1..] else ["./"]
  {
    var d := FirstMismatch(from, to);
    ScanCommonPrefix(from, to, 0);
    assert to[0..] == to;
    ScanLast(from, to, d, to[d..]);
    assert Scan(from, to, d + 1, PrefixCurrentDir(to[d..])) == PrefixCurrentDir(to[d..]);
    if d < |to| {
      assert to[d..][0 := "./" + to[d]] == ["./" + to[d]] + to[d + 1..];
    }
  }

  /** When every segment of `from` matches, the result is the rest of `to`. */
  lemma RelativeSegmentsDescend(from: seq<string>, to: seq<string>)
    requires FirstMismatch(from, to) == |from|
    ensures RelativeSegments(from, to) == to[|from|..]
  {
    ScanCommonPrefix(from, to, 0);
  }

  /** A path relative to itself is the empty string, never a traversal. */
  lemma RelativePathToItself(p: string, isDir: bool)
    ensures RelativePath(p, p, isDir, isDir) == ""
  {
    var segs := Segments(p, isDir);
    assert FirstMismatch(segs, segs) == |segs|;
    RelativeSegmentsDescend(segs, segs);
  }

  // ---------------------------------------------------------------------
  // Normalisation
  // ---------------------------------------------------------------------

  lemma {:induction false} TrimSeparatorsForwardSlashes(p: string)
    ensures ForwardSlashes(TrimSeparators(p)) == TrimSeparators(ForwardSlashes(p))
    decreases |p|
  {
    if p != [] {
      var q := p[..|p| - 1];
      assert ForwardSlashes(q) == ForwardSlashes(p)[..|p| - 1];
      TrimSeparatorsForwardSlashes(q);
    }
  }

  lemma {:induction false} TrimSeparatorsAppended(p: string, seps: string)
    requires forall i :: 0 <= i < |seps| ==> IsSeparator(seps[i])
    ensures TrimSeparators(p + seps) == TrimSeparators(p)
    decreases |seps|
  {
    if seps == [] {
      assert p + seps == p;
    } else {
      var shorter := seps[..|seps| - 1];
      assert (p + seps)[|p + seps| - 1] == seps[|seps| - 1];
      assert (p + seps)[..|p + seps| - 1] == p + shorter;
      TrimSeparatorsAppended(p, shorter);
    }
  }

  /** Normalisation only depends on where the separators are, not which one is used. */
  lemma NormalizeSeparatorsAlike(p: string, q: string, isDir: bool)
    requires ForwardSlashes(p) == ForwardSlashes(q)
    ensures Normalize(p, isDir) == Normalize(q, isDir)
  {
    if isDir {
      TrimSeparatorsForwardSlashes(p);
      TrimSeparatorsForwardSlashes(q);
      assert ForwardSlashes(TrimSeparators(p) + "/") == ForwardSlashes(TrimSeparators(p)) + "/";
      assert ForwardSlashes(TrimSeparators(q) + "/") == ForwardSlashes(TrimSeparators(q)) + "/";
    }
  }

  /**
   * Backslashes in the inputs are treated exactly like '/': inputs that only
   * differ in which separator they use give the same relative path.
   */
  lemma RelativePathSeparatorsAlike(from: string, from': string, to: string, to': string, fromIsDir: bool, toIsDir: bool)
    requires ForwardSlashes(from) == ForwardSlashes(from')
    requires ForwardSlashes(to) == ForwardSlashes(to')
    ensures RelativePath(from, to, fromIsDir, toIsDir) == RelativePath(from', to', fromIsDir, toIsDir)
  {
    NormalizeSeparatorsAlike(from, from', fromIsDir);
    NormalizeSeparatorsAlike(to, to', toIsDir);
  }

  /**
   * A directory is normalised to end in exactly one '/', whatever run of
   * separators it ended with, and holds no '\' any more.
   */
  lemma NormalizeDirectory(p: string, seps: string)
    requires forall i :: 0 <= i < |seps| ==> IsSeparator(seps[i])
    ensures Normalize(p + seps, true) == Normalize(p, true)
    ensures var n := Normalize(p, true);
            |n| >= 1 && n[|n| - 1] == '/' && (|n| == 1 || !IsSeparator(n[|n| - 2])) && '\\' !in n
  {
    TrimSeparatorsAppended(p, seps);
  }

  // ---------------------------------------------------------------------
  // Splitting and joining
  // ---------------------------------------------------------------------

  lemma {:induction false} JoinSplit(s: string)
    ensures Join(Split(s)) == s
    decreases |s|
  {
    if s != [] {
      var rest := Split(s[1..]);
      JoinSplit(s[1..]);
      if s[0] == '/' {
        assert ([""] + rest)[1..] == rest;
      } else {
        var segs := [[s[0]] + rest[0]] + rest[1..];
        if |rest| == 1 {
          assert Join(segs) == [s[0]] + rest[0];
        } else {
          assert segs[1..] == rest[1..];
          assert Join(segs) == [s[0]] + rest[0] + "/" + Join(rest[1..]);
        }
      }
    }
  }

  lemma {:induction false} SplitSegment(a: string, tail: seq<string>)
    requires '/' !in a
    ensures Split(a) == [a]
    ensures tail != [] ==> Split(a + "/" + Join(tail)) == [a] + Split(Join(tail))
    decreases |a|
  {
    if a != [] {
      assert a[0] != '/' && '/' !in a[1..];
      SplitSegment(a[1..], tail);
      assert [a[0]] + a[1..] == a;
      if tail != [] {
        assert (a + "/" + Join(tail))[1..] == a[1..] + "/" + Join(tail);
      }
    } else if tail != [] {
      assert ("" + "/" + Join(tail))[1..] == Join(tail);
    }
  }

  /** Segments without '/' survive joining and splitting again. */
  lemma {:induction false} SplitJoin(segs: seq<string>)
    requires segs != []
    requires forall i :: 0 <= i < |segs| ==> '/' !in segs[i]
    ensures Split(Join(segs)) == segs
    decreases |segs|
  {
    if |segs| == 1 {
      SplitSegment(segs[0], []);
    } else {
      SplitJoin(segs[1..]);
      SplitSegment(segs[0], segs[1..]);
    }
  }

  // ---------------------------------------------------------------------
  // Round trip
  // ---------------------------------------------------------------------

  /**
   * Resolving relative segments against a directory: '..' goes up one level,
   * '.' stays, any other segment (the empty one included) goes down.
   */
  function Resolve(dir: seq<string>, rel: seq<string>): seq<string>
    decreases |rel|
  {
    if rel == [] then dir
    else if rel[0] == ".." then Resolve(if dir == [] then [] else dir[..|dir| - 1], rel[1..])
    else if rel[0] == "." then Resolve(dir, rel[1..])
    else Resolve(dir + [rel[0]], rel[1..])
  }

  lemma {:induction false} ResolveAppend(dir: seq<string>, a: seq<string>, b: seq<string>)
    ensures Resolve(dir, a + b) == Resolve(Resolve(dir, a), b)
    decreases |a|
  {
    if a == [] {
      assert a + b == b;
    } else {
      assert (a + b)[0] == a[0] && (a + b)[1..] == a[1..] + b;
      var dir' := if a[0] == ".." then (if dir == [] then [] else dir[..|dir| - 1])
                  else if a[0] == "." then dir else dir + [a[0]];
      assert Resolve(dir, a + b) == Resolve(dir', a[1..] + b);
      assert Resolve(dir, a) == Resolve(dir', a[1..]);
      ResolveAppend(dir', a[1..], b);
    }
  }

  lemma {:induction false} ResolveClimb(dir: seq<string>, k: nat)
    requires k <= |dir|
    ensures Resolve(dir, Repeat("..", k)) == dir[..|dir| - k]
    decreases k
  {
    if k > 0 {
      assert Repeat("..", k)[1..] == Repeat("..", k - 1);
      ResolveClimb(dir[..|dir| - 1], k - 1);
      assert dir[..|dir| - 1][..|dir| - 1 - (k - 1)] == dir[..|dir| - k];
    }
  }

  lemma {:induction false} ResolveDescend(dir: seq<string>, segs: seq<string>)
    requires forall i :: 0 <= i < |segs| ==> segs[i] != "." && segs[i] != ".."
    ensures Resolve(dir, segs) == dir + segs
    decreases |segs|
  {
    if segs != [] {
      ResolveDescend(dir + [segs[0]], segs[1..]);
      assert dir + [segs[0]] + segs[1..] == dir + segs;
    }
  }

  /**
   * The directories of `from` below depth `d` are named by plain segments:
   * none is empty, '.' or '..', so climbing out of one with '..' lands where
   * dropping the segment does.
   */
  predicate PlainBelow(from: seq<string>, d: nat)
  {
    forall j :: d <= j < |from| - 1 ==> from[j] != "" && from[j] != "." && from[j] != ".."
  }

  /**
   * When the mismatch lies within `from`, `to` is reachable by the result
   * (there is something of `to` left after a mismatch at `from`'s last
   * segment), the directories the result climbs out of are plain, and no
   * segment of `to` past the mismatch is '.' or '..'.
   */
  predicate Reachable(from: seq<string>, to: seq<string>)
  {
    var d := FirstMismatch(from, to);
    && d < |from|
    && (d < |to| || d < |from| - 1)
    && PlainBelow(from, d)
    && forall j :: d <= j < |to| ==> to[j] != "." && to[j] != ".."
  }

  /** The segments from `d` on of a `to` that `from` can reach hold no '/', '.' or '..'. */
  lemma ReachableRest(from: seq<string>, to: seq<string>)
    requires Reachable(from, to)
    requires forall j :: 0 <= j < |to| ==> '/' !in to[j]
    ensures var rest := to[FirstMismatch(from, to)..];
            forall j :: 0 <= j < |rest| ==> '/' !in rest[j] && rest[j] != "." && rest[j] != ".."
  {
    var d := FirstMismatch(from, to);
    forall j | 0 <= j < |to[d..]| ensures to[d..][j] == to[d + j] { }
  }

  /** Two runs of separator-free segments make one. */
  lemma NoSlashAppend(a: seq<string>, b: seq<string>)
    requires forall j :: 0 <= j < |a| ==> '/' !in a[j]
    requires forall j :: 0 <= j < |b| ==> '/' !in b[j]
    ensures forall j :: 0 <= j < |a + b| ==> '/' !in (a + b)[j]
  {
    forall j | 0 <= j < |a + b| ensures '/' !in (a + b)[j] {
      if j >= |a| { assert (a + b)[j] == b[j - |a|]; }
    }
  }

  /** Climbing `k` levels and then descending into plain segments, as segments. */
  lemma ClimbDescend(dir: seq<string>, k: nat, rest: seq<string>)
    requires k <= |dir|
    requires forall j :: 0 <= j < |rest| ==> rest[j] != "." && rest[j] != ".."
    ensures Resolve(dir, Repeat("..", k) + rest) == dir[..|dir| - k] + rest
  {
    ResolveAppend(dir, Repeat("..", k), rest);
    ResolveClimb(dir, k);
    ResolveDescend(dir[..|dir| - k], rest);
  }

  /** Separator-free segments resolve the same after joining and splitting again. */
  lemma ResolveJoined(dir: seq<string>, segs: seq<string>)
    requires segs != []
    requires forall j :: 0 <= j < |segs| ==> '/' !in segs[j]
    ensures Resolve(dir, Split(Join(segs))) == Resolve(dir, segs)
  {
    SplitJoin(segs);
  }

  /** Dropping the last segment and then keeping `d` keeps `d`. */
  lemma PrefixOfDirectory(from: seq<string>, d: nat)
    requires d < |from|
    ensures from[..|from| - 1][..d] == from[..d]
  {
  }

  /** The common prefix is the same in both. */
  lemma CommonPrefix(from: seq<string>, to: seq<string>)
    ensures from[..FirstMismatch(from, to)] == to[..FirstMismatch(from, to)]
  {
  }

  /** A sequence is its prefix followed by the rest. */
  lemma Reassemble(prefix: seq<string>, to: seq<string>, d: nat)
    requires d <= |to| && prefix == to[..d]
    ensures prefix + to[d..] == to
  {
  }

  /**
   * The shape of a result that climbs: `segs` goes up from the directory of
   * `from` to depth `d`, where `from` and `to` agree, and then down through
   * the plain segments of `to` past `d`.
   */
  predicate Climbs(from: seq<string>, d: nat, to: seq<string>, segs: seq<string>)
  {
    && d < |from| - 1 && d <= |to| && from[..d] == to[..d]
    && PlainBelow(from, d)
    && (forall j :: 0 <= j < |to[d..]| ==> '/' !in to[d..][j] && to[d..][j] != "." && to[d..][j] != "..")
    && segs == Repeat("..", |from| - d - 1) + to[d..]
  }

  lemma ClimbShape(from: seq<string>, to: seq<string>)
    requires Reachable(from, to) && FirstMismatch(from, to) < |from| - 1
    requires forall j :: 0 <= j < |to| ==> '/' !in to[j]
    ensures Climbs(from, FirstMismatch(from, to), to, RelativeSegments(from, to))
  {
    RelativeSegmentsClimb(from, to);
    ReachableRest(from, to);
    CommonPrefix(from, to);
  }

  /** Resolving a climbing result against the directory of `from` reaches `to`. */
  lemma ClimbRoundTrip(from: seq<string>, d: nat, to: seq<string>, segs: seq<string>)
    requires Climbs(from, d, to, segs)
    ensures Resolve(from[..|from| - 1], Split(Join(segs))) == to
  {
    var dir, climb, rest := from[..|from| - 1], Repeat("..", |from| - d - 1), to[d..];
    NoSlashAppend(climb, rest);
    ResolveJoined(dir, segs);
    ClimbDescend(dir, |from| - d - 1, rest);
    PrefixOfDirectory(from, d);
    Reassemble(from[..d], to, d);
  }

  /** The round trip when the result climbs out of the directory of `from`. */
  lemma RoundTripClimbing(from: seq<string>, to: seq<string>)
    requires Reachable(from, to) && FirstMismatch(from, to) < |from| - 1
    requires forall j :: 0 <= j < |to| ==> '/' !in to[j]
    ensures Resolve(from[..|from| - 1], Split(Join(RelativeSegments(from, to)))) == to
  {
    ClimbShape(from, to);
    ClimbRoundTrip(from, FirstMismatch(from, to), to, RelativeSegments(from, to));
  }

  lemma JoinCons(first: string, rest: seq<string>)
    requires rest != []
    ensures Join([first] + rest) == first + "/" + Join(rest)
  {
    assert ([first] + rest)[1..] == rest;
  }

  /** Gluing `p` onto the first segment prefixes the joined text with `p`. */
  lemma JoinPrefixFirst(p: string, segs: seq<string>)
    requires segs != []
    ensures Join([p + segs[0]] + segs[1..]) == p + Join(segs)
  {
    if |segs| > 1 {
      var tail := Join(segs[1..]);
      JoinCons(p + segs[0], segs[1..]);
      JoinCons(segs[0], segs[1..]);
      assert [segs[0]] + segs[1..] == segs;
      StringAssoc(p, segs[0], "/" + tail);
    }
  }

  lemma StringAssoc(a: string, b: string, c: string)
    ensures a + b + c == a + (b + c)
  {
  }

  /** Gluing "./" onto the first segment is the same as a leading "." segment. */
  lemma JoinCurrentDir(segs: seq<string>)
    requires segs != []
    ensures Join(["./" + segs[0]] + segs[1..]) == Join(["."] + segs)
  {
    JoinPrefixFirst("./", segs);
    JoinCons(".", segs);
    assert "." + "/" == "./";
  }

  /** A leading "." and then plain segments. */
  lemma DotThenDescend(dir: seq<string>, rest: seq<string>)
    requires rest != []
    requires forall j :: 0 <= j < |rest| ==> '/' !in rest[j] && rest[j] != "." && rest[j] != ".."
    ensures Resolve(dir, Split(Join(["./" + rest[0]] + rest[1..]))) == dir + rest
  {
    JoinCurrentDir(rest);
    var segs := ["."] + rest;
    assert forall j :: 0 <= j < |segs| ==> '/' !in segs[j] by {
      forall j | 0 <= j < |segs| ensures '/' !in segs[j] {
        if j >= 1 { assert segs[j] == rest[j - 1]; }
      }
    }
    SplitJoin(segs);
    assert segs[1..] == rest;
    ResolveDescend(dir, rest);
  }

  /** The round trip when the result starts with "./". */
  lemma RoundTripCurrentDir(from: seq<string>, to: seq<string>)
    requires Reachable(from, to) && FirstMismatch(from, to) == |from| - 1
    requires forall j :: 0 <= j < |to| ==> '/' !in to[j]
    ensures Resolve(from[..|from| - 1], Split(Join(RelativeSegments(from, to)))) == to
  {
    var d := FirstMismatch(from, to);
    var rest := to[d..];
    RelativeSegmentsCurrentDir(from, to);
    assert RelativeSegments(from, to) == ["./" + rest[0]] + rest[1..];
    ReachableRest(from, to);
    DotThenDescend(from[..|from| - 1], rest);
    CommonPrefix(from, to);
    assert from[..|from| - 1] == from[..d];
    Reassemble(from[..d], to, d);
  }

  /**
   * Resolving the joined result against the directory that contains `from`
   * (all of `from` but its last segment) yields `to`.
   */
  lemma RelativeSegmentsRoundTrip(from: seq<string>, to: seq<string>)
    requires Reachable(from, to)
    requires forall j :: 0 <= j < |to| ==> '/' !in to[j]
    ensures Resolve(from[..|from| - 1], Split(Join(RelativeSegments(from, to)))) == to
  {
    if FirstMismatch(from, to) < |from| - 1 {
      RoundTripClimbing(from, to);
    } else {
      RoundTripCurrentDir(from, to);
    }
  }

  /**
   * The same on strings: resolving getRelativePath(from, to) against the
   * directory containing `from` gives back normalised `to`.
   */
  lemma RelativePathRoundTrip(from: string, to: string, fromIsDir: bool, toIsDir: bool)
    requires Reachable(Segments(from, fromIsDir), Segments(to, toIsDir))
    ensures var f := Segments(from, fromIsDir);
            Join(Resolve(f[..|f| - 1], Split(RelativePath(from, to, fromIsDir, toIsDir)))) == Normalize(to, toIsDir)
  {
    RelativeSegmentsRoundTrip(Segments(from, fromIsDir), Segments(to, toIsDir));
    JoinSplit(Normalize(to, toIsDir));
  }

  // ---------------------------------------------------------------------
  // Paths made of plain segments
  // ---------------------------------------------------------------------

  /** A path made of separator-free segments splits back into them. */
  lemma PlainSegments(segs: seq<string>)
    requires segs != []
    requires forall i :: 0 <= i < |segs| ==> '/' !in segs[i] && '\\' !in segs[i]
    ensures Segments(Join(segs), false) == segs
  {
    JoinHasNoBackslash(segs);
    var p := Join(segs);
    assert ForwardSlashes(p) == p;
    SplitJoin(segs);
  }

  lemma {:induction false} JoinHasNoBackslash(segs: seq<string>)
    requires forall i :: 0 <= i < |segs| ==> '\\' !in segs[i]
    ensures '\\' !in Join(segs)
    decreases |segs|
  {
    if |segs| > 1 {
      JoinHasNoBackslash(segs[1..]);
    }
  }

  /** A directory made of separator-free segments, the last one not empty, gains one empty segment. */
  lemma PlainDirectorySegments(segs: seq<string>)
    requires segs != [] && segs[|segs| - 1] != ""
    requires forall i :: 0 <= i < |segs| ==> '/' !in segs[i] && '\\' !in segs[i]
    ensures Segments(Join(segs), true) == segs + [""]
  {
    var p := Join(segs);
    JoinLast(segs);
    assert TrimSeparators(p) == p;
    JoinAppendEmpty(segs);
    PlainSegments(segs + [""]);
  }

  lemma {:induction false} JoinLast(segs: seq<string>)
    requires segs != [] && segs[|segs| - 1] != ""
    ensures var p := Join(segs);
            p != [] && p[|p| - 1] == segs[|segs| - 1][|segs[|segs| - 1]| - 1]
    decreases |segs|
  {
    if |segs| > 1 {
      JoinLast(segs[1..]);
    }
  }

  lemma {:induction false} JoinAppendEmpty(segs: seq<string>)
    requires segs != []
    ensures Join(segs + [""]) == Join(segs) + "/"
    decreases |segs|
  {
    if |segs| == 1 {
      assert (segs + [""])[1..] == [""];
    } else {
      assert (segs + [""])[1..] == segs[1..] + [""];
      JoinAppendEmpty(segs[1..]);
    }
  }
}

=== FILE: symlink_finding.dfy ===
/**
 * The symlink action asks whether the link location is a directory before it
 * replaces it (line 237). When a directory is there, a '/' is appended to the
 * location, the computation takes the location itself for the directory the
 * link sits in, and the link text climbs one level too many. With the project
 * in /p, package a/b, origin "lib" and link location "www", where /p/www is a
 * directory:
 * the as-written text is "../vendor/a/b/lib", which from /p resolves to
 * /vendor/a/b/lib; the text relative to the link's directory is
 * "./vendor/a/b/lib", which resolves to /p/vendor/a/b/lib.
 */
module SymlinkFinding {
  import opened Filesystem
  import FileManager
  import RelativePaths

  const Origin := "/p/vendor/a/b/lib"
  const Location := "/p/www"

  /** The link location is a directory and the origin a file. */
  function Before(): FS
  {
    map[Location := Dir(DefaultMode), Origin := File("")]
  }

  lemma LocationSegments()
    ensures RelativePaths.Segments(Location, false) == ["", "p", "www"]
    ensures RelativePaths.Segments(Location, true) == ["", "p", "www", ""]
  {
    assert RelativePaths.Join(["", "p", "www"]) == Location;
    RelativePaths.PlainSegments(["", "p", "www"]);
    RelativePaths.PlainDirectorySegments(["", "p", "www"]);
  }

  lemma OriginSegments()
    ensures RelativePaths.Segments(Origin, false) == ["", "p", "vendor", "a", "b", "lib"]
  {
    OriginJoined();
    OriginPlain();
    RelativePaths.PlainSegments(["", "p", "vendor", "a", "b", "lib"]);
  }

  lemma OriginJoined()
    ensures RelativePaths.Join(["", "p", "vendor", "a", "b", "lib"]) == Origin
  {
    assert RelativePaths.Join(["b", "lib"]) == "b/lib";
    assert RelativePaths.Join(["vendor", "a", "b", "lib"]) == "vendor/a/b/lib";
  }

  lemma OriginPlain()
    ensures var segs := ["", "p", "vendor", "a", "b", "lib"];
            forall i :: 0 <= i < |segs| ==> '/' !in segs[i] && '\\' !in segs[i]
  {
  }

  lemma AsWrittenSegments()
    ensures RelativePaths.RelativeSegments(["", "p", "www", ""], ["", "p", "vendor", "a", "b", "lib"])
              == ["..", "vendor", "a", "b", "lib"]
  {
    var f, t := ["", "p", "www", ""], ["", "p", "vendor", "a", "b", "lib"];
    assert RelativePaths.FirstMismatch(f, t) == 2 by {
      assert f[..2] == t[..2] && f[2] != t[2];
    }
    RelativePaths.RelativeSegmentsClimb(f, t);
    assert RelativePaths.Repeat("..", 1) + t[2..] == ["..", "vendor", "a", "b", "lib"];
  }

  lemma CorrectedSegments()
    ensures RelativePaths.RelativeSegments(["", "p", "www"], ["", "p", "vendor", "a", "b", "lib"])
              == ["./vendor", "a", "b", "lib"]
  {
    var f, t := ["", "p", "www"], ["", "p", "vendor", "a", "b", "lib"];
    assert RelativePaths.FirstMismatch(f, t) == 2 by {
      assert f[..2] == t[..2] && f[2] != t[2];
    }
    RelativePaths.RelativeSegmentsCurrentDir(f, t);
    assert "./" + "vendor" == "./vendor";
  }

  lemma AsWrittenText()
    ensures FileManager.AsWrittenLinkText(Before(), Origin, Location)
              == RelativePaths.Join(["..", "vendor", "a", "b", "lib"])
  {
    assert IsDir(Before(), Location) && !IsDir(Before(), Origin);
    LocationSegments();
    OriginSegments();
    AsWrittenSegments();
  }

  lemma CorrectedText()
    ensures FileManager.LinkText(Before(), Origin, Location)
              == RelativePaths.Join(["./vendor", "a", "b", "lib"])
  {
    assert !IsDir(Before(), Origin);
    LocationSegments();
    OriginSegments();
    CorrectedSegments();
  }

  lemma ResolveAsWritten()
    ensures RelativePaths.Resolve(["", "p"], ["..", "vendor", "a", "b", "lib"]) == ["", "vendor", "a", "b", "lib"]
  {
    var d := ["", "vendor", "a", "b", "lib"];
    RelativePaths.ResolveDescend([""], d[1..]);
    assert [""] + d[1..] == d;
  }

  lemma ResolveCorrected()
    ensures RelativePaths.Resolve(["", "p"], [".", "vendor", "a", "b", "lib"]) == ["", "p", "vendor", "a", "b", "lib"]
  {
    var d := [".", "vendor", "a", "b", "lib"];
    RelativePaths.ResolveDescend(["", "p"], d[1..]);
    assert ["", "p"] + d[1..] == ["", "p", "vendor", "a", "b", "lib"];
  }

  lemma SplitAsWritten()
    ensures var r := ["..", "vendor", "a", "b", "lib"];
            RelativePaths.Split(RelativePaths.Join(r)) == r
  {
    RelativePaths.SplitJoin(["..", "vendor", "a", "b", "lib"]);
  }

  lemma SplitCorrected()
    ensures var r := [".", "vendor", "a", "b", "lib"];
            RelativePaths.Split(RelativePaths.Join(r)) == r
  {
    RelativePaths.SplitJoin([".", "vendor", "a", "b", "lib"]);
  }

  /**
   * The link text as written, "../vendor/a/b/lib", resolved from the
   * directory /p that holds the link, names /vendor/a/b/lib instead of the
   * origin /p/vendor/a/b/lib.
   */
  lemma ExistingDirectoryClimbsTooFar()
    ensures var text := FileManager.AsWrittenLinkText(Before(), Origin, Location);
            && text == RelativePaths.Join(["..", "vendor", "a", "b", "lib"])
            && RelativePaths.Resolve(["", "p"], RelativePaths.Split(text)) == ["", "vendor", "a", "b", "lib"]
            && RelativePaths.Resolve(["", "p"], RelativePaths.Split(text)) != RelativePaths.Segments(Origin, false)
  {
    AsWrittenText();
    SplitAsWritten();
    ResolveAsWritten();
    OriginSegments();
  }

  /** The text the model uses instead, "./vendor/a/b/lib", resolves from /p to the origin. */
  lemma LinkTextReachesOrigin()
    ensures var text := FileManager.LinkText(Before(), Origin, Location);
            && text == RelativePaths.Join([".", "vendor", "a", "b", "lib"])
            && RelativePaths.Resolve(["", "p"], RelativePaths.Split(text)) == RelativePaths.Segments(Origin, false)
  {
    CorrectedText();
    JoinCorrected();
    SplitCorrected();
    ResolveCorrected();
    OriginSegments();
  }

  lemma JoinCorrected()
    ensures RelativePaths.Join(["./vendor", "a", "b", "lib"]) == RelativePaths.Join([".", "vendor", "a", "b", "lib"])
  {
    var rest := ["vendor", "a", "b", "lib"];
    RelativePaths.JoinCurrentDir(rest);
    assert "./" + "vendor" == "./vendor";
    assert ["./" + rest[0]] + rest[1..] == ["./vendor", "a", "b", "lib"];
    assert ["."] + rest == [".", "vendor", "a", "b", "lib"];
  }
}
